=== FILE: README.md ===
# LAN file publishing core, modelled in Dafny

FyneLanFileTransfer is a small desktop tool. The user picks a local file,
and the tool serves it over HTTP on port 32123 of the machine's LAN address
under a random URL. This project models the deterministic decision rules
behind that publishing mechanism in `main.go`, as pure Dafny functions, and
proves their properties:

- **Address resolver** (`getConnectedPhysicalIP`, module `Resolver`). It
  considers the interfaces that are up, are not loopback, have a hardware
  address, are not a known virtual adapter and have no "VPN" in their
  name. It picks the first usable address (a non-loopback IPv4 address) of
  the first such interface that has one. An interface whose address list
  cannot be read, or that has no usable address, is passed over. With no
  usable address anywhere it returns `localhost`. The operating system's
  interface list is an input.
- **Virtual-adapter filter** (`isVirtualOrVPN`, module `MacFilter`). This is a
  case-sensitive prefix test against eight vendor prefixes. The text it is
  applied to is Go's `HardwareAddr.String()` (`NetAddr.MacString`), which is
  always lower-case hex.
- **Token generator** (`generateRandomString`, module `Token`). It returns the
  lower-case hex text (`Hex`) of caller-supplied random bytes, or `""` when
  the entropy source fails.
- **Publication registry** (`fileMap`, module `Registry`). This is a
  `map<string, string>` from token to path, with Go's zero-value read.
- **Download handler** (module `Serving`). It chooses Content-Type from the
  nine-entry extension table and builds Content-Disposition from the base
  name. `filepath.Base` and `filepath.Ext` are modelled in `Paths`.
- **URLs and routes** (module `Links`). This covers the route
  `/send-file/<token>`, the URL `http://<ip>:32123/send-file/<token>` and
  recovering the token from either.
- **Overview page and history text** (module `Listing`). Each renders one
  entry per registry item. For an empty registry the page shows the "no
  files" message and the history text is the empty string.
- **Publishing workflow** (module `Workflow`). This covers the "generate
  link" button and `startFileServer`: mint a token, insert it, register its
  route and format the URL. It also covers a sequence of publications.

Two behaviours of the program are worth stating plainly:

- When `generateRandomString` fails, `startFileServer` (main.go:141-149)
  still stores and routes the empty string as the token.
  `Workflow.StartFileServer` therefore publishes under `""` in that case.
- The download handler has no not-found branch. It reads the map, and a
  missing key yields `""` (`Serving.HandleSendFile`).
  `Workflow.HandlerServesRegisteredFile` shows that on a consistent server
  every registered route names a present key, so the missing-key case never
  arises.

## Model

| member | source | states |
|---|---|---|
| Strings.HasPrefix | main.go:259 | `strings.HasPrefix` holds exactly when the prefix is a sequence prefix of the string, compared character by character |
| Strings.Contains | main.go:223 | `strings.Contains` holds exactly when the substring occurs at some position |
| Hex.Encode | main.go:201 | the hex text of n bytes has length 2·n and only characters `0-9a-f` |
| Hex.Decode | main.go:201 | the decoder that undoes `hex.EncodeToString`: a successful decode yields half as many bytes as the text has characters |
| Hex.DecodeFailsIff | main.go:201 | decoding fails exactly on an odd length or a character that is not a hex digit |
| Hex.DecodeEncode | main.go:201 | decoding the hex text gives back the bytes |
| Hex.EncodeDecode | main.go:201 | every decodable lower-case hex string is the encoding of what it decodes to |
| Hex.EncodeInjective | main.go:201 | two byte strings have the same hex text iff they are equal |
| NetAddr.To4 | main.go:235 | `To4` is defined exactly for 4-byte IPs and IPv4-mapped 16-byte IPs, and yields their last four bytes |
| NetAddr.IsLoopback | main.go:233 | an IP is loopback iff it is 4 bytes starting with 127, or 16 bytes with the IPv4-mapped prefix and 127 in byte 12, or exactly `::1` |
| NetAddr.DottedQuad | main.go:236 | `ip.String()` of an IPv4 address is 7 to 15 characters of digits and dots |
| NetAddr.DottedQuadExample | main.go:236 | `192.168.1.20` is written with its bytes in order, most significant first |
| NetAddr.DecimalInjective | main.go:236 | the decimal text of a byte determines the byte |
| NetAddr.SplitAtFirstDot | main.go:236 | a text of digits, a dot and a rest splits in only one way |
| NetAddr.DottedQuadInjective | main.go:236 | two IPv4 addresses have the same dotted-quad text iff they are equal |
| NetAddr.ParseDecimalOfDecimal | main.go:236 | each decimal component of the dotted quad reads back as its byte |
| NetAddr.MacString | main.go:218 | `HardwareAddr.String()` of n > 0 bytes has length 3·n−1 and holds only lower-case hex digits and colons |
| NetAddr.MacStringOui | main.go:218 | the first eight characters of a hardware-address text spell its first three bytes |
| NetAddr.MacStringInjective | main.go:218 | distinct hardware addresses have distinct texts |
| MacFilter.AnyPrefix | main.go:258-263 | the loop over the table returns true iff some entry is a prefix of the string |
| MacFilter.IsVirtualOrVPN | main.go:245-264 | `isVirtualOrVPN(s)` is true iff one of the eight listed prefixes, as spelled, is a prefix of `s`; every other string gives false |
| MacFilter.UpperCaseNeverPrefix | main.go:218 | no string containing an upper-case letter is a prefix of a hardware-address text |
| MacFilter.UppercasePrefixesNeverMatch | main.go:247-259 | on real hardware-address text only the four all-digit prefixes can ever match |
| MacFilter.VMwareTextNotRejected | main.go:248-259 | a text starting `00:0c:29` matches no table entry |
| MacFilter.VMwareOuiText | main.go:218 | the text of an address with identifier 00:0c:29 starts `00:0c:29` |
| MacFilter.VMwareAdapterSlipsThrough | main.go:249 | every VMware 00:0c:29 adapter passes the filter as written |
| MacFilter.IsVirtualOrVPNFixed | main.go:247-256 | the corrected filter is true iff a lower-cased table entry is a prefix |
| MacFilter.EntrySpellsOui1 | main.go:218 | the identifier 00:0c:29 is written `00:0c:29` by `HardwareAddr.String()` |
| MacFilter.FoldedPrefixSpellsOui | main.go:247-256 | each lower-cased table entry is the text of the vendor identifier it names |
| MacFilter.FixedFilterCatchesVendorOui | main.go:247-256 | the corrected filter rejects every address whose first three bytes are a listed vendor identifier |
| MacFilter.FixedFilterOnlyVendorOuis | main.go:247-256 | the corrected filter rejects only such addresses |
| MacFilter.FixedFilterMatchesVendorOuis | main.go:247-256 | the corrected filter rejects an address iff its first three bytes are one of the eight vendor identifiers |
| Resolver.Qualifies | main.go:213-225 | an interface passes the filters iff it is up, not loopback, has a non-empty hardware address whose text the virtual test accepts, and "VPN" occurs nowhere in its name |
| Resolver.Usable | main.go:233-235 | an address is accepted iff it is an `*IPNet` whose IP is 4 bytes not starting with 127, or IPv4-mapped 16 bytes with byte 12 not 127 |
| Resolver.FirstUsable | main.go:232-239 | the inner loop's stopping position: every earlier address is unusable, and the address there, when there is one, is usable |
| Resolver.FirstIPv4 | main.go:232-239 | the inner loop yields nothing iff no address is a non-loopback `*IPNet` with an IPv4 form; otherwise it yields the IPv4 form of the first such address |
| Resolver.FirstContributor | main.go:211-240 | the outer loop's stopping position: every earlier interface contributes nothing, and the interface there, when there is one, contributes an address |
| Resolver.Select | main.go:211-241 | the outer loop yields nothing iff no interface contributes; otherwise it yields the contribution of the first interface that contributes, in enumeration order |
| Resolver.Advertised | main.go:204-242 | the advertised string is `localhost` or the dotted quad of some interface's contribution |
| Resolver.ScanAddrs | main.go:232-239 | the inner loop returns the IPv4 form of the first non-loopback `*IPNet` address, or nothing |
| Resolver.GetConnectedPhysicalIP | main.go:204-242 | the nested-loop procedure (skip on each filter, skip an interface whose address list fails, return on the first IPv4) computes the advertised address |
| Resolver.AdvertisedFirstMatch | main.go:211-239 | when interface i is the first that contributes an address, the result is that address's dotted quad |
| Resolver.AdvertisedQualifies | main.go:211-238 | the result is `localhost` or the IPv4 text of a non-loopback address of an interface that is up, not loopback, has a hardware address the filter accepts and a name without "VPN" |
| Resolver.AdvertisedFallbackIff | main.go:205-241 | the result is `localhost` iff enumeration fails or no interface contributes an address |
| Resolver.PhysicalIP | main.go:204-242 | with the filter as written, the result is `localhost` iff enumeration fails or no interface contributes an address |
| Resolver.PhysicalIPFixed | main.go:204-242 | with the corrected filter, the result is `localhost` iff enumeration fails or no interface contributes an address |
| Resolver.DottedQuadIsNotFallback | main.go:236-241 | an advertised IPv4 text is never the fallback literal |
| Resolver.LoopbackAndVMwareGiveFallback | main.go:211-241 | a host with only a loopback interface and a VMware 00:50:56 adapter advertises `localhost` |
| Resolver.Vmnet8IsNotVPN | main.go:223 | the name "vmnet8" passes the VPN name filter |
| Resolver.VMwareAdapterAdvertised | main.go:211-241 | with a VMware 00:0c:29 adapter instead, the filter as written advertises the adapter's address |
| Resolver.VMwareAdapterRejectedWhenFixed | main.go:211-241 | with the corrected filter that host advertises `localhost` |
| Token.GenerateRandomString | main.go:195-202 | for n bytes the token is 2·n lower-case hex characters that decode to the bytes; an entropy failure yields `""` |
| Token.WorkflowTokenShape | main.go:141 | a 12-byte token is 24 lower-case hex characters |
| Token.DistinctEntropyDistinctTokens | main.go:195-202 | distinct random bytes give distinct tokens |
| Paths.Base | main.go:154 | the base name is never empty, is "." for the empty path, and contains no separator unless it is "/" |
| Paths.BaseOfJoin | main.go:154 | the base name of `dir/name` is `name` for a non-empty element `name` |
| Paths.BaseOfElement | main.go:154 | a single non-empty element is its own base name |
| Paths.Ext | main.go:155 | the extension is a suffix of the path: either empty, when the last element has no dot, or starting at the last dot of the last element |
| Paths.ExtOfSuffix | main.go:155 | the extension of `stem.tail` is `.tail` when `tail` has no dot or separator |
| Serving.ContentType | main.go:157-175 | the content type is always one of the table's values; it is the table value for a listed extension (with its dot, matched exactly) and `application/octet-stream` for any other |
| Serving.ContentTypeTable | main.go:158-168 | each of the nine listed extensions gets its own type from the table |
| Serving.Disposition | main.go:177 | the header value is `attachment; filename=` followed by exactly the name |
| Serving.DispositionInjective | main.go:177 | two names give the same header value iff they are equal |
| Serving.HeadersFor | main.go:154-177 | the type is the table's entry for the path's extension (octet-stream off the table), and the disposition is `attachment; filename=` followed by the path's base name |
| Serving.HandleSendFile | main.go:150-178 | the handler serves the path registered for its token, with the headers for that path |
| Serving.HeadersForFileName | main.go:154-177 | for `dir/stem.tail` the type is the table's entry for `.tail` and the disposition is `attachment; filename=stem.tail` |
| Serving.ReportPdfExt | main.go:155 | `report.pdf` in any directory has extension `.pdf` |
| Serving.ReportPdfBase | main.go:154 | `report.pdf` in any directory has base name `report.pdf` |
| Serving.ReportPdfHeaders | main.go:158-177 | `report.pdf` is sent as `application/pdf` with `attachment; filename=report.pdf` |
| Serving.DataBinHeaders | main.go:170-175 | `data.bin` is sent as `application/octet-stream` |
| Serving.ExtensionMatchIsCaseSensitive | main.go:171 | `.PDF` is not in the table and gets the generic type |
| Registry.Publish | main.go:144-146 | after insertion the token maps to the path, every other entry is unchanged, and a fresh token grows the map by one |
| Registry.Read | main.go:151 | a read returns the stored path, or `""` for a missing key |
| Registry.PublishThenRead | main.go:144-152 | a published token reads back its path and other tokens read as before |
| Registry.PublishSamePathTwice | main.go:139-146 | one path published under two fresh tokens leaves two entries, both naming it |
| Links.Route | main.go:149 | the route of a token starts with `/send-file/` and the rest of it is exactly the token |
| Links.TokenOfRoute | main.go:149 | a route yields a token iff it starts with `/send-file/`, and the route of that token is the route |
| Links.RouteRoundTrip | main.go:149 | the token is recovered from its route |
| Links.RouteInjective | main.go:149 | two tokens share a route iff they are equal |
| Links.ServiceUrl | main.go:120 | the overview URL is `http://`, then exactly the host, then `:32123/` |
| Links.DownloadUrl | main.go:182-184 | the URL is origin `http://ip:32123` followed by exactly the registered route, and extends the overview URL |
| Links.TokenOfUrl | main.go:184 | a token recovered from a URL formats back to that URL |
| Links.UrlRoundTrip | main.go:183-184 | the token is recovered from the URL handed out for it |
| Listing.EnumerationLength | main.go:112 | an enumeration of the registry lists as many keys as the registry holds |
| Listing.FormatEntry | main.go:114 | a list item opens `<li><a href='`, then holds the URL, then the file name after `'>`, and closes `</a></li>`; the history record of main.go:273 opens with the file label and the name, holds the URL after the link label, and ends with a blank line |
| Listing.Entries | main.go:112-115 | one entry per enumerated key, linking that key's URL with the base name of its path |
| Listing.EntriesMatchRegistry | main.go:109-116 | there are as many entries as registry items, and every key has exactly one entry, at the one position where the enumeration lists it |
| Listing.KeyHasOneEntry | main.go:112-115 | a registry key has an entry at a position where no other entry is for it |
| Listing.ListingPage | main.go:102-118 | the page opens with the heading and closes with the footer; for an empty registry it is exactly heading, "no files" message and footer, otherwise a list item follows the heading |
| Listing.PageBody | main.go:109-116 | between heading and footer stands the "no files" message for an empty registry, otherwise exactly the concatenated list items, starting with `<li>` |
| Listing.ListingPageIsEntries | main.go:106-117 | a non-empty registry's page is the heading, then exactly the list items of the enumeration, one per key, then the footer |
| Listing.ListingHasEveryEntry | main.go:109-116 | every registry key's list item, linking its URL with its file's base name, occurs in the page |
| Listing.ItemsStartWithLi | main.go:114 | a non-empty list of items starts with `<li>` |
| Listing.ListingEmptyIff | main.go:106-117 | the page is the "no files" page iff the registry is empty |
| Listing.HistoryText | main.go:271-276 | the history text is empty for an empty registry and otherwise opens with a file record |
| Listing.HistoryTextIsEntries | main.go:271-276 | the history text is exactly the records of the enumeration, one per key, concatenated |
| Listing.HistoryHasEveryEntry | main.go:271-276 | every registry key's record occurs in the history text |
| Listing.HistoryEmptyIff | main.go:271-274 | the history text is empty iff the registry is |
| Workflow.InitialConsistent | main.go:102 | at start-up only the overview route is registered and the registry is empty |
| Workflow.StartFileServer | main.go:139-185 | publish maps a 24-hex-character token (or `""` on entropy failure) to the path, changes no other entry, registers its route, and yields a URL whose token is the minted one |
| Workflow.Register | main.go:144-149 | the token now reads as the path, every other token reads as before, the token's route is added and no other route appears |
| Workflow.RegisterConsistent | main.go:144-149 | recording a token and registering its route keeps every token routed and every non-overview route backed by a registered token |
| Workflow.StartFileServerConsistent | main.go:139-149 | a publication preserves that route/registry invariant |
| Workflow.OnGenerateLink | main.go:92-99 | with no file selected the button only prompts; otherwise the selected path is published |
| Workflow.HandlerServesRegisteredFile | main.go:149-152 | on a consistent server a registered route names a present token, so the handler serves its file |
| Workflow.RepublishMintsNewToken | main.go:139-146 | re-publishing a path with new random bytes mints a second token; both resolve and the registry grows by two |
| Workflow.PublishAll | main.go:139-146 | a run of publications never drops an entry |
| Workflow.PublishStepIsStartFileServer | main.go:139-149 | one step of the run is the state change of one `startFileServer` call |
| Workflow.PublishAllConsistent | main.go:139-149 | a run of publications preserves the route/registry invariant |
| Workflow.RestStaysFresh | main.go:141-145 | after one publication the remaining requests' tokens are still fresh |
| Workflow.PublishAllSize | main.go:144-146 | N publications with distinct random draws and fresh tokens add exactly N entries |

## Left out

- Fyne UI is not modelled: the window, tray, file dialog, widgets,
  close-intercept and the `SetText` calls. The button handler's two
  branches are modelled by `Workflow.OnGenerateLink`, without the widgets.
- `http.ServeFile` streaming, both `http.ListenAndServe` calls (including
  the repeated one at main.go:191) and `ServeMux` pattern matching are left
  out. These are library I/O. Routes are modelled as a set of registered
  patterns, so the model does not show that the pattern `/send-file/` of an
  empty token matches a whole subtree, or that a duplicate registration
  panics.
- The single-instance control channel (main.go:280-307) is left out. It is
  socket I/O.
- Goroutines and `sync.Mutex` are not modelled. Registry access is
  sequential, which is what the lock enforces.
- Workflow.Register makes the registry insert and the route registration
  one step. The program releases the lock (main.go:146) before it
  registers the route (main.go:149). In between, a page rendered under the
  lock can link a token that has no route yet, and the `/` pattern answers
  that URL with the overview page. So the "every token has its route" half
  of `Workflow.Consistent` does not hold while a publication is in
  progress.
- `crypto/rand` and `net.Interfaces()`/`iface.Addrs()` are not modelled.
  Their results are inputs (`Token.Entropy`, `Resolver.Enumeration`,
  `Resolver.AddrList`).
- The Go standard library's `net` package is not part of this model.
  `To4`, `IsLoopback`, `IP.String` and `HardwareAddr.String` follow that
  package's documented behaviour for the cases the resolver reaches.
- The console message printed when interface enumeration fails
  (main.go:207) is left out. It is console I/O; the fallback it precedes is
  modelled.
- Go byte strings are modelled as sequences of characters. Every prefix,
  separator and digit the model compares is ASCII, so byte and character
  comparisons agree.
- `filepath.Base`/`filepath.Ext` use '/' as the only separator. Windows
  volume names and '\\' separators are left out.
- Go map iteration order is not modelled: the listing and history take an
  `order` that enumerates the keys once each. All their properties hold for
  every such order.
- The listing calls `getConnectedPhysicalIP` once per entry. The model uses
  one `ip` for the whole page, so it does not cover an address change during
  a render.
- File names are written into the HTML and headers without escaping, as in
  the source. No property depends on escaping.
- Paths.Base: the contract states only the shape of the result. The exact
  value is stated for element paths by Paths.BaseOfJoin and
  Paths.BaseOfElement, not for paths with trailing separators.
- Links.TokenOfUrl: the contract states only soundness. Completeness is
  Links.UrlRoundTrip.

## Findings

| source | as written | input that shows it | evidently intended | confidence | as-written member | corrected member |
|---|---|---|---|---|---|---|
| main.go:247-259 | four prefixes (`00:0C:29`, `00:1C:42`, `00:16:3E`, `00:1D:D8`) are spelled in upper case, but they are compared case-sensitively with `HardwareAddr.String()`, which is always lower case | the VMware adapter `00:0c:29:12:34:56` is not rejected, and its address is advertised (Resolver.VMwareAdapterAdvertised) | all eight vendor identifiers are rejected | high; not executed | MacFilter.UppercasePrefixesNeverMatch | MacFilter.FixedFilterMatchesVendorOuis |

The resolver takes the filter as a parameter. `Resolver.PhysicalIP` uses
the filter as written, which is the program's behaviour.
`Resolver.PhysicalIPFixed` uses the corrected filter.
`Resolver.VMwareAdapterRejectedWhenFixed` shows that it rejects the adapter
above.

=== FILE: hex.dfy ===
/** Lower-case hexadecimal, as Go's `encoding/hex` writes it, and the
    decoder that undoes it. */
module Hex {
  import opened Prelude

  predicate IsLowerHexDigit(c: char) {
    '0' <= c <= '9' || 'a' <= c <= 'f'
  }

  predicate IsLowerHex(s: string) {
    forall i :: 0 <= i < |s| ==> IsLowerHexDigit(s[i])
  }

  /** The value of one hex digit; upper-case digits are accepted as Go's
      decoder accepts them. */
  function DigitValue(c: char): (v: Option<nat>)
    ensures v.Some? ==> v.value < 16
    ensures IsLowerHexDigit(c) ==> v.Some?
  {
    if '0' <= c <= '9' then Some(c as int - '0' as int)
    else if 'a' <= c <= 'f' then Some(c as int - 'a' as int + 10)
    else if 'A' <= c <= 'F' then Some(c as int - 'A' as int + 10)
    else None
  }

  /** The digit of `"0123456789abcdef"` at index `n`. */
  function Digit(n: nat): (c: char)
    requires n < 16
    ensures IsLowerHexDigit(c)
    ensures DigitValue(c) == Some(n)
  {
    if n < 10 then ('0' as int + n) as char else ('a' as int + n - 10) as char
  }

  /** `Digit` is the inverse of `DigitValue` on lower-case digits. */
  lemma DigitOfValue(c: char)
    requires IsLowerHexDigit(c)
    ensures Digit(DigitValue(c).value) == c
  {
  }

  /** The two digits of one byte, high nibble first. */
  function EncodeByte(b: byte): (s: string)
    ensures |s| == 2 && IsLowerHex(s)
    ensures DigitValue(s[0]).value * 16 + DigitValue(s[1]).value == b
  {
    [Digit(b / 16), Digit(b % 16)]
  }

  /** `hex.EncodeToString`. */
  function Encode(bs: seq<byte>): (s: string)
    ensures |s| == 2 * |bs|
    ensures IsLowerHex(s)
  {
    if |bs| == 0 then "" else EncodeByte(bs[0]) + Encode(bs[1..])
  }

  /** `hex.DecodeString`: `None` for an odd length or a non-hex digit. */
  function Decode(s: string): (r: Option<seq<byte>>)
    ensures r.Some? ==> 2 * |r.value| == |s|
    decreases |s|
  {
    if |s| == 0 then Some([])
    else if |s| == 1 then None
    else
      var hi := DigitValue(s[0]);
      var lo := DigitValue(s[1]);
      var rest := Decode(s[2..]);
      if hi.None? || lo.None? || rest.None? then None
      else Some([(hi.value * 16 + lo.value) as byte] + rest.value)
  }

  /** Decoding fails exactly on an odd length or a character that is not a
      hex digit. */
  lemma {:induction false} DecodeFailsIff(s: string)
    ensures Decode(s).None? <==> |s| % 2 == 1 || exists i :: 0 <= i < |s| && DigitValue(s[i]).None?
    decreases |s|
  {
    if |s| >= 2 {
      DecodeFailsIff(s[2..]);
      assert forall i :: 2 <= i < |s| ==> s[i] == s[2..][i - 2];
    }
  }

  /** Decoding a byte's two digits in front of `t` yields that byte in front
      of the decoding of `t`. */
  lemma DecodeEncodedByte(b: byte, t: string)
    ensures Decode(EncodeByte(b) + t)
         == if Decode(t).None? then None else Some([b] + Decode(t).value)
  {
    var s := EncodeByte(b) + t;
    assert s[2..] == t;
    assert s[0] == EncodeByte(b)[0] && s[1] == EncodeByte(b)[1];
  }

  /** Decoding undoes encoding. */
  lemma {:induction false} DecodeEncode(bs: seq<byte>)
    ensures Decode(Encode(bs)) == Some(bs)
  {
    if |bs| > 0 {
      DecodeEncode(bs[1..]);
      DecodeEncodedByte(bs[0], Encode(bs[1..]));
      assert [bs[0]] + bs[1..] == bs;
    }
  }

  /** The byte with digits `hi` and `lo` encodes to those digits. */
  lemma EncodeByteOfDigits(hi: nat, lo: nat)
    requires hi < 16 && lo < 16
    ensures EncodeByte(hi * 16 + lo) == [Digit(hi), Digit(lo)]
  {
    var b := hi * 16 + lo;
    assert b / 16 == hi && b % 16 == lo;
  }

  /** A suffix of a lower-case hex string is lower-case hex. */
  lemma LowerHexSuffix(s: string, k: nat)
    requires IsLowerHex(s) && k <= |s|
    ensures IsLowerHex(s[k..])
  {
    forall i | 0 <= i < |s[k..]| ensures IsLowerHexDigit(s[k..][i]) {
      assert s[k..][i] == s[i + k];
    }
  }

  /** Encoding undoes decoding on every lower-case hex string. */
  lemma {:induction false} EncodeDecode(s: string)
    requires IsLowerHex(s)
    requires Decode(s).Some?
    ensures Encode(Decode(s).value) == s
  {
    if |s| > 0 {
      var bs := Decode(s).value;
      var hi := DigitValue(s[0]).value;
      var lo := DigitValue(s[1]).value;
      var rest := Decode(s[2..]).value;
      assert bs == [(hi * 16 + lo) as byte] + rest;
      LowerHexSuffix(s, 2);
      EncodeDecode(s[2..]);
      EncodeByteOfDigits(hi, lo);
      DigitOfValue(s[0]);
      DigitOfValue(s[1]);
      assert Encode(bs) == EncodeByte(bs[0]) + Encode(rest);
      assert s == [s[0], s[1]] + s[2..];
    }
  }

  /** Distinct byte strings encode to distinct hex strings. */
  lemma EncodeInjective(a: seq<byte>, b: seq<byte>)
    ensures Encode(a) == Encode(b) <==> a == b
  {
    if Encode(a) == Encode(b) {
      DecodeEncode(a);
      DecodeEncode(b);
    }
  }

  /** Two bytes with the same digits are equal. */
  lemma EncodeByteInjective(a: byte, b: byte)
    requires EncodeByte(a) == EncodeByte(b)
    ensures a == b
  {
  }
}

=== FILE: links.dfy ===
/** The URLs the program hands out and the route it registers for a token. */
module Links {
  import opened Prelude

  /** The fixed HTTP port, as the text the program formats into URLs. */
  const Port: string := "32123"

  const SendFilePrefix: string := "/send-file/"

  /** The pattern `http.HandleFunc` registers for a token. */
  function Route(token: string): (route: string)
    ensures |route| == |SendFilePrefix| + |token|
    ensures SendFilePrefix <= route && route[|SendFilePrefix|..] == token
  {
    SendFilePrefix + token
  }

  /** The token a route was registered for, if it is a send-file route. */
  function TokenOfRoute(route: string): (token: Option<string>)
    ensures token.Some? <==> SendFilePrefix <= route
    ensures token.Some? ==> Route(token.value) == route
  {
    if SendFilePrefix <= route then Some(route[|SendFilePrefix|..]) else None
  }

  /** The token is recovered from its route. */
  lemma RouteRoundTrip(token: string)
    ensures TokenOfRoute(Route(token)) == Some(token)
  {
    assert SendFilePrefix <= Route(token);
  }

  /** Distinct tokens have distinct routes. */
  lemma RouteInjective(a: string, b: string)
    ensures Route(a) == Route(b) <==> a == b
  {
    if Route(a) == Route(b) {
      RouteRoundTrip(a);
      RouteRoundTrip(b);
    }
  }

  /** Scheme, host and port: everything of a URL before its path. */
  function Origin(ip: string): string {
    "http://" + ip + ":" + Port
  }

  /** The overview address shown in the window. */
  function ServiceUrl(ip: string): (url: string)
    ensures |url| == |ip| + 14
    ensures url[..7] == "http://" && url[7..7 + |ip|] == ip && url[7 + |ip|..] == ":32123/"
  {
    Origin(ip) + "/"
  }

  /** The download URL, formatted as `http://%s:%s/send-file/%s`. Its path
      is exactly the route registered for the token. */
  function DownloadUrl(ip: string, token: string): (url: string)
    ensures url == Origin(ip) + Route(token)
    ensures ServiceUrl(ip) <= url
  {
    "http://" + ip + ":" + Port + "/send-file/" + token
  }

  /** The token of a download URL for the given host. */
  function TokenOfUrl(ip: string, url: string): (token: Option<string>)
    ensures token.Some? ==> DownloadUrl(ip, token.value) == url
  {
    var origin := Origin(ip);
    if origin <= url then
      var t := TokenOfRoute(url[|origin|..]);
      if t.Some? then
        assert url == origin + url[|origin|..];
        t
      else
        None
    else None
  }

  /** The token is recovered from the URL handed out for it. */
  lemma UrlRoundTrip(ip: string, token: string)
    ensures TokenOfUrl(ip, DownloadUrl(ip, token)) == Some(token)
  {
    var url := DownloadUrl(ip, token);
    assert url[|Origin(ip)|..] == Route(token);
    RouteRoundTrip(token);
  }
}

=== FILE: listing.dfy ===
/** The overview page served at "/" and the history text shown in the
    window: one entry per registry item, in the order Go's map iteration
    happens to produce, which the model takes as an input. */
module Listing {
  import opened Registry
  import Links
  import Paths
  import Strings

  /** `order` lists every key of `files` exactly once. */
  predicate Enumerates(order: seq<string>, files: FileMap) {
    && (forall i, j :: 0 <= i < j < |order| ==> order[i] != order[j])
    && (forall k :: k in order ==> k in files)
    && (forall k :: k in files ==> k in order)
  }

  /** A duplicate-free sequence is as long as the set of its elements. */
  lemma {:induction false} DistinctLength(order: seq<string>, keys: set<string>)
    requires forall i, j :: 0 <= i < j < |order| ==> order[i] != order[j]
    requires forall k :: k in order ==> k in keys
    requires forall k :: k in keys ==> k in order
    ensures |order| == |keys|
  {
    if |order| > 0 {
      var rest := order[1..];
      assert forall k :: k in rest <==> k in keys - {order[0]} by {
        forall k ensures k in rest <==> k in keys - {order[0]} {
          if k in rest {
            var j :| 0 <= j < |rest| && rest[j] == k;
            assert order[j + 1] == k;
            assert k != order[0];
          }
          if k in order && k != order[0] {
            var j :| 0 <= j < |order| && order[j] == k;
            assert rest[j - 1] == k;
          }
        }
      }
      DistinctLength(rest, keys - {order[0]});
    }
  }

  /** An enumeration of the registry is as long as the registry. */
  lemma EnumerationLength(order: seq<string>, files: FileMap)
    requires Enumerates(order, files)
    ensures |order| == |files|
  {
    DistinctLength(order, files.Keys);
  }

  datatype Style = ListItem | HistoryEntry

  /** The label opening each history record. */
  const RecordHead: string := "\U{6587}\U{4ef6}: "

  /** One entry: an HTML list item linking the URL with the base name, or
      the two-line history record. */
  function FormatEntry(style: Style, url: string, name: string): (e: string)
    ensures style == ListItem ==>
      "<li><a href='" <= e && Strings.OccursAt(e, url, 13) && e[|e| - 9..] == "</a></li>"
    ensures style == ListItem ==> Strings.OccursAt(e, name, 15 + |url|)
    ensures style == HistoryEntry ==>
      RecordHead <= e && Strings.OccursAt(e, name, |RecordHead|) && e[|e| - 2..] == "\n\n"
    ensures style == HistoryEntry ==> Strings.OccursAt(e, url, |RecordHead| + |name| + 5)
  {
    match style
    case ListItem => "<li><a href='" + url + "'>" + name + "</a></li>"
    case HistoryEntry => RecordHead + name + "\n\U{94fe}\U{63a5}: " + url + "\n\n"
  }

  /** The entry for one registry key, addressed from host `ip`. */
  function EntryFor(files: FileMap, ip: string, key: string, style: Style): string
    requires key in files
  {
    FormatEntry(style, Links.DownloadUrl(ip, key), Paths.Base(files[key]))
  }

  /** The entries for the keys of `order`, in that order. */
  function Entries(files: FileMap, ip: string, order: seq<string>, style: Style): (lines: seq<string>)
    requires forall k :: k in order ==> k in files
    ensures |lines| == |order|
    ensures forall i :: 0 <= i < |order| ==> lines[i] == EntryFor(files, ip, order[i], style)
  {
    if |order| == 0 then [] else [EntryFor(files, ip, order[0], style)] + Entries(files, ip, order[1..], style)
  }

  /** `k` appears in `order` at no index other than `i`. */
  predicate OnlyAt(order: seq<string>, k: string, i: nat) {
    forall j :: 0 <= j < |order| && j != i ==> order[j] != k
  }

  /** In an enumeration, a key appears at one index only. */
  lemma OnlyIndex(order: seq<string>, files: FileMap, i: nat)
    requires Enumerates(order, files) && i < |order|
    ensures OnlyAt(order, order[i], i)
  {
    forall j | 0 <= j < |order| && j != i ensures order[j] != order[i] {
      if j < i { assert order[j] != order[i]; } else { assert order[i] != order[j]; }
    }
  }

  /** A registry key has exactly one entry in an enumeration's listing. */
  lemma KeyHasOneEntry(files: FileMap, ip: string, order: seq<string>, style: Style, k: string)
    requires Enumerates(order, files) && k in files
    ensures exists i :: (0 <= i < |order| && order[i] == k
              && Entries(files, ip, order, style)[i] == EntryFor(files, ip, k, style)
              && OnlyAt(order, k, i))
  {
    var i :| 0 <= i < |order| && order[i] == k;
    OnlyIndex(order, files, i);
  }

  /** Given an enumeration of the registry, there is one entry per registry
      item: as many entries as keys, and every key has exactly one entry.
      (That every entry belongs to a key is `Entries`'s own contract.) */
  lemma EntriesMatchRegistry(files: FileMap, ip: string, order: seq<string>, style: Style)
    requires Enumerates(order, files)
    ensures |Entries(files, ip, order, style)| == |files|
    ensures forall k :: k in files ==> exists i :: (0 <= i < |order| && order[i] == k
              && Entries(files, ip, order, style)[i] == EntryFor(files, ip, k, style)
              && OnlyAt(order, k, i))
  {
    EnumerationLength(order, files);
    forall k | k in files
      ensures exists i :: (0 <= i < |order| && order[i] == k
              && Entries(files, ip, order, style)[i] == EntryFor(files, ip, k, style)
              && OnlyAt(order, k, i))
    {
      KeyHasOneEntry(files, ip, order, style, k);
    }
  }

  /** The concatenation of a sequence of strings. */
  function Concat(parts: seq<string>): string {
    if |parts| == 0 then "" else parts[0] + Concat(parts[1..])
  }

  const PageHead: string :=
    "<html><head><title>\U{6587}\U{4ef6}\U{4e0b}\U{8f7d}</title></head><body>\n"
    + "<h2>\U{53ef}\U{7528}\U{4e0b}\U{8f7d}\U{6587}\U{4ef6}</h2><ul>\n"

  const NoFilesMessage: string := "<p>\U{6682}\U{65e0}\U{53ef}\U{4e0b}\U{8f7d}\U{6587}\U{4ef6}</p>"

  const PageFoot: string := "</ul></body></html>\n"

  /** The overview page: the no-files message for an empty registry,
      otherwise the list items of every entry. */
  function ListingPage(files: FileMap, ip: string, order: seq<string>): (page: string)
    requires Enumerates(order, files)
    ensures PageHead <= page
    ensures |page| >= |PageFoot| && page[|page| - |PageFoot|..] == PageFoot
    ensures |files| == 0 ==> page == PageHead + NoFilesMessage + PageFoot
    ensures |files| > 0 ==> PageHead + "<li>" <= page
  {
    var body := PageBody(files, ip, order);
    Framing(PageHead, body, PageFoot, if |files| == 0 then body else "<li>");
    PageHead + body + PageFoot
  }

  /** What stands between heading and footer: the no-files message, or the
      list items. */
  function PageBody(files: FileMap, ip: string, order: seq<string>): (body: string)
    requires Enumerates(order, files)
    ensures |files| == 0 ==> body == NoFilesMessage
    ensures |files| > 0 ==> "<li>" <= body && body == Concat(Entries(files, ip, order, ListItem))
  {
    EnumerationLength(order, files);
    if |files| == 0 then NoFilesMessage
    else
      ItemsStartWithLi(files, ip, order);
      Concat(Entries(files, ip, order, ListItem))
  }

  /** `h + x + f` opens with `h` followed by any prefix `y` of `x`, and closes
      with `f`. */
  lemma Framing(h: string, x: string, f: string, y: string)
    requires y <= x
    ensures h + y <= h + x + f
    ensures |h + x + f| >= |f| && (h + x + f)[|h + x + f| - |f|..] == f
  {
    assert (h + x + f)[..|h + y|] == h + y;
  }

  /** A non-empty registry's page is the heading, then exactly the list
      items of the enumeration, each once, then the footer. */
  lemma ListingPageIsEntries(files: FileMap, ip: string, order: seq<string>)
    requires Enumerates(order, files)
    ensures |files| > 0 ==>
      ListingPage(files, ip, order) == PageHead + Concat(Entries(files, ip, order, ListItem)) + PageFoot
  {
    EnumerationLength(order, files);
  }

  /** A non-empty concatenation of list items starts with "<li>". */
  lemma ItemsStartWithLi(files: FileMap, ip: string, order: seq<string>)
    requires forall k :: k in order ==> k in files
    requires |order| > 0
    ensures "<li>" <= Concat(Entries(files, ip, order, ListItem))
  {
    var lines := Entries(files, ip, order, ListItem);
    var k := order[0];
    ListItemStartsWithLi(Links.DownloadUrl(ip, k), Paths.Base(files[k]));
    assert lines[0] == FormatEntry(ListItem, Links.DownloadUrl(ip, k), Paths.Base(files[k]));
    assert Concat(lines) == lines[0] + Concat(lines[1..]);
  }

  lemma ListItemStartsWithLi(url: string, name: string)
    ensures "<li>" <= FormatEntry(ListItem, url, name)
  {
  }

  /** The page shows the no-files message exactly when the registry is empty. */
  lemma ListingEmptyIff(files: FileMap, ip: string, order: seq<string>)
    requires Enumerates(order, files)
    ensures ListingPage(files, ip, order) == PageHead + NoFilesMessage + PageFoot <==> |files| == 0
  {
    EnumerationLength(order, files);
    if |files| > 0 {
      var body := Concat(Entries(files, ip, order, ListItem));
      ItemsStartWithLi(files, ip, order);
    }
  }

  /** The history text shown in the window: every entry's record, one after
      the other. */
  function HistoryText(files: FileMap, ip: string, order: seq<string>): (text: string)
    requires Enumerates(order, files)
    ensures |files| == 0 ==> text == ""
    ensures |files| > 0 ==> RecordHead <= text
  {
    EnumerationLength(order, files);
    var lines := Entries(files, ip, order, HistoryEntry);
    if |order| > 0 then
      assert RecordHead <= lines[0];
      assert Concat(lines) == lines[0] + Concat(lines[1..]);
      Concat(lines)
    else
      Concat(lines)
  }

  /** The history text is exactly the records of the enumeration, each once,
      one after the other. */
  lemma HistoryTextIsEntries(files: FileMap, ip: string, order: seq<string>)
    requires Enumerates(order, files)
    ensures HistoryText(files, ip, order) == Concat(Entries(files, ip, order, HistoryEntry))
  {
    EnumerationLength(order, files);
  }

  /** The history is empty exactly when the registry is. */
  lemma HistoryEmptyIff(files: FileMap, ip: string, order: seq<string>)
    requires Enumerates(order, files)
    ensures HistoryText(files, ip, order) == "" <==> |files| == 0
  {
    EnumerationLength(order, files);
    if |order| > 0 {
      var lines := Entries(files, ip, order, HistoryEntry);
      assert |lines[0]| > 0;
      assert Concat(lines) == lines[0] + Concat(lines[1..]);
    }
  }

  /** Every part of a concatenation occurs in it, at the returned position. */
  lemma {:induction false} ConcatHasPart(parts: seq<string>, i: nat) returns (q: nat)
    requires i < |parts|
    ensures Strings.OccursAt(Concat(parts), parts[i], q)
  {
    var c := Concat(parts);
    assert c == parts[0] + Concat(parts[1..]);
    if i == 0 {
      assert c[0..|parts[0]|] == parts[0];
      q := 0;
    } else {
      var r := ConcatHasPart(parts[1..], i - 1);
      Shifted(parts[0], Concat(parts[1..]), parts[i], r);
      q := |parts[0]| + r;
    }
  }

  /** An occurrence in `c` is an occurrence in `g + c`, shifted by `g`. */
  lemma Shifted(g: string, c: string, x: string, q: nat)
    requires Strings.OccursAt(c, x, q)
    ensures Strings.OccursAt(g + c, x, |g| + q)
  {
    assert (g + c)[|g| + q..|g| + q + |x|] == c[q..q + |x|];
  }

  /** An occurrence in `c` is an occurrence in `c + f`. */
  lemma Extended(c: string, f: string, x: string, q: nat)
    requires Strings.OccursAt(c, x, q)
    ensures Strings.OccursAt(c + f, x, q)
  {
    assert (c + f)[q..q + |x|] == c[q..q + |x|];
  }

  /** The list item of one registry key occurs in the overview page, at the
      returned position. */
  lemma ListingHasEntry(files: FileMap, ip: string, order: seq<string>, k: string) returns (q: nat)
    requires Enumerates(order, files) && k in files
    ensures Strings.OccursAt(ListingPage(files, ip, order), EntryFor(files, ip, k, ListItem), q)
  {
    var lines := Entries(files, ip, order, ListItem);
    var i :| 0 <= i < |order| && order[i] == k;
    assert |files| > 0 by {
      EnumerationLength(order, files);
    }
    assert ListingPage(files, ip, order) == PageHead + Concat(lines) + PageFoot;
    assert lines[i] == EntryFor(files, ip, k, ListItem);
    q := FramedPart(PageHead, lines, PageFoot, i);
  }

  /** A line of `lines` occurs in `h + Concat(lines) + f`, at the returned
      position. */
  lemma FramedPart(h: string, lines: seq<string>, f: string, i: nat) returns (q: nat)
    requires i < |lines|
    ensures Strings.OccursAt(h + Concat(lines) + f, lines[i], q)
  {
    var c := Concat(lines);
    var r := ConcatHasPart(lines, i);
    Shifted(h, c, lines[i], r);
    Extended(h + c, f, lines[i], |h| + r);
    q := |h| + r;
  }

  /** The overview page lists every registry entry: the list item linking a
      key's URL with its file's base name occurs in the page. */
  lemma ListingHasEveryEntry(files: FileMap, ip: string, order: seq<string>)
    requires Enumerates(order, files)
    ensures forall k :: k in files ==>
      exists q: nat :: Strings.OccursAt(ListingPage(files, ip, order), EntryFor(files, ip, k, ListItem), q)
  {
    forall k | k in files
      ensures exists q: nat :: Strings.OccursAt(ListingPage(files, ip, order), EntryFor(files, ip, k, ListItem), q)
    {
      var q := ListingHasEntry(files, ip, order, k);
    }
  }

  /** The record of one registry key occurs in the history text, at the
      returned position. */
  lemma HistoryHasEntry(files: FileMap, ip: string, order: seq<string>, k: string) returns (q: nat)
    requires Enumerates(order, files) && k in files
    ensures Strings.OccursAt(HistoryText(files, ip, order), EntryFor(files, ip, k, HistoryEntry), q)
  {
    var lines := Entries(files, ip, order, HistoryEntry);
    var i :| 0 <= i < |order| && order[i] == k;
    assert HistoryText(files, ip, order) == Concat(lines);
    assert lines[i] == EntryFor(files, ip, k, HistoryEntry);
    q := ConcatHasPart(lines, i);
  }

  /** The history text holds the record of every registry entry. */
  lemma HistoryHasEveryEntry(files: FileMap, ip: string, order: seq<string>)
    requires Enumerates(order, files)
    ensures forall k :: k in files ==>
      exists q: nat :: Strings.OccursAt(HistoryText(files, ip, order), EntryFor(files, ip, k, HistoryEntry), q)
  {
    forall k | k in files
      ensures exists q: nat :: Strings.OccursAt(HistoryText(files, ip, order), EntryFor(files, ip, k, HistoryEntry), q)
    {
      var q := HistoryHasEntry(files, ip, order, k);
    }
  }
}

=== FILE: macfilter.dfy ===
/** The virtual-adapter filter: a hardware-address string is rejected when
    it starts with one of eight vendor prefixes. */
module MacFilter {
  import opened Prelude
  import opened Strings
  import Hex
  import NetAddr

  /** The prefix table, in the program's order and spelling (VMware three
      times, VirtualBox, QEMU/KVM, Parallels, Xen, Hyper-V). */
  const VirtualPrefixes: seq<string> :=
    ["00:05:69", "00:0C:29", "00:50:56", "08:00:27", "52:54:00", "00:1C:42", "00:16:3E", "00:1D:D8"]

  /** True when some entry of `prefixes` is a prefix of `s`; the entries are
      tried in order, as the program's loop tries them. */
  function AnyPrefix(prefixes: seq<string>, s: string): (b: bool)
    ensures b <==> exists i :: 0 <= i < |prefixes| && prefixes[i] <= s
  {
    if |prefixes| == 0 then false
    else if HasPrefix(s, prefixes[0]) then true
    else
      var rest := AnyPrefix(prefixes[1..], s);
      assert forall i :: 1 <= i < |prefixes| ==> prefixes[i] == prefixes[1..][i - 1];
      rest
  }

  /** `isVirtualOrVPN`: a byte-for-byte, case-sensitive prefix test against
      the table. */
  function IsVirtualOrVPN(mac: string): (b: bool)
    ensures b <==> exists i :: 0 <= i < |VirtualPrefixes| && VirtualPrefixes[i] <= mac
  {
    AnyPrefix(VirtualPrefixes, mac)
  }

  /** A string that starts with an upper-case letter at `k` is never the
      prefix of a hardware-address text, which holds only lower-case hex
      digits and colons. */
  lemma UpperCaseNeverPrefix(p: string, k: nat, hw: seq<byte>)
    requires k < |p| && 'A' <= p[k] <= 'Z'
    ensures !(p <= NetAddr.MacString(hw))
  {
    var s := NetAddr.MacString(hw);
    if k < |s| {
      assert s[k] != p[k];
    }
  }

  /** The table entries spelled with upper-case letters (VMware 00:0C:29,
      Parallels, Xen, Hyper-V) never match the text Go produces for a
      hardware address, so on real input the filter reduces to the four
      all-digit entries. */
  lemma UppercasePrefixesNeverMatch(hw: seq<byte>)
    ensures IsVirtualOrVPN(NetAddr.MacString(hw)) <==>
      exists i :: i in {0, 2, 3, 4} && VirtualPrefixes[i] <= NetAddr.MacString(hw)
  {
    UpperCaseNeverPrefix(VirtualPrefixes[1], 4, hw);
    UpperCaseNeverPrefix(VirtualPrefixes[5], 4, hw);
    UpperCaseNeverPrefix(VirtualPrefixes[6], 7, hw);
    UpperCaseNeverPrefix(VirtualPrefixes[7], 4, hw);
  }

  /** A string that differs from `p` at a position inside both does not start with `p`. */
  lemma DifferAt(p: string, s: string, k: nat)
    requires k < |p| && k < |s| && p[k] != s[k]
    ensures !(p <= s)
  {
  }

  /** No table entry opens a hardware-address text that starts `00:0c:29`. */
  lemma VMwareTextNotRejected(s: string)
    requires |s| >= 8 && s[..8] == "00:0c:29"
    ensures !IsVirtualOrVPN(s)
  {
    assert s[0] == '0' && s[1] == '0' && s[3] == '0' && s[4] == 'c';
    DifferAt(VirtualPrefixes[0], s, 4);
    DifferAt(VirtualPrefixes[1], s, 4);
    DifferAt(VirtualPrefixes[2], s, 3);
    DifferAt(VirtualPrefixes[3], s, 1);
    DifferAt(VirtualPrefixes[4], s, 0);
    DifferAt(VirtualPrefixes[5], s, 4);
    DifferAt(VirtualPrefixes[6], s, 4);
    DifferAt(VirtualPrefixes[7], s, 4);
  }

  /** The text of a hardware address with identifier 00:0c:29 starts `00:0c:29`. */
  lemma VMwareOuiText(hw: seq<byte>)
    requires |hw| >= 3 && hw[..3] == [0x00, 0x0c, 0x29]
    ensures NetAddr.MacString(hw)[..8] == "00:0c:29"
  {
    EntrySpellsOui1();
    NetAddr.MacStringOui(hw);
  }

  /** Every VMware adapter with organisationally unique identifier 00:0c:29
      slips through the filter as written. */
  lemma VMwareAdapterSlipsThrough(hw: seq<byte>)
    requires |hw| >= 3 && hw[..3] == [0x00, 0x0c, 0x29]
    ensures !IsVirtualOrVPN(NetAddr.MacString(hw))
  {
    VMwareOuiText(hw);
    VMwareTextNotRejected(NetAddr.MacString(hw));
  }

  /** The vendor identifiers (first three bytes) the table is meant to name. */
  const VirtualOuis: seq<seq<byte>> :=
    [[0x00, 0x05, 0x69], [0x00, 0x0c, 0x29], [0x00, 0x50, 0x56], [0x08, 0x00, 0x27],
     [0x52, 0x54, 0x00], [0x00, 0x1c, 0x42], [0x00, 0x16, 0x3e], [0x00, 0x1d, 0xd8]]

  /** The same table spelled in the lower case that `HardwareAddr.String`
      produces. */
  const FoldedPrefixes: seq<string> :=
    ["00:05:69", "00:0c:29", "00:50:56", "08:00:27", "52:54:00", "00:1c:42", "00:16:3e", "00:1d:d8"]

  /** The corrected filter: the same prefix test against the lower-case table. */
  function IsVirtualOrVPNFixed(mac: string): (b: bool)
    ensures b <==> exists i :: 0 <= i < |FoldedPrefixes| && FoldedPrefixes[i] <= mac
  {
    AnyPrefix(FoldedPrefixes, mac)
  }

  /** The text of a three-byte identifier. */
  lemma OuiText(a: byte, b: byte, c: byte)
    ensures NetAddr.MacString([a, b, c])
         == Hex.EncodeByte(a) + ":" + Hex.EncodeByte(b) + ":" + Hex.EncodeByte(c)
  {
    NetAddr.MacStringOui([a, b, c]);
    assert [a, b, c][..3] == [a, b, c];
  }

  /** Each lower-case table entry is the text of the matching vendor identifier. */
  lemma FoldedPrefixSpellsOui(i: nat)
    requires i < |VirtualOuis|
    ensures FoldedPrefixes[i] == NetAddr.MacString(VirtualOuis[i])
  {
    if i < 4 {
      FirstFourSpellOuis(i);
    } else {
      LastFourSpellOuis(i);
    }
  }

  lemma FirstFourSpellOuis(i: nat)
    requires i < 4
    ensures FoldedPrefixes[i] == NetAddr.MacString(VirtualOuis[i])
  {
    if i == 0 {
      EntrySpellsOui0();
      assert VirtualOuis[0] == [0x00, 0x05, 0x69] && FoldedPrefixes[0] == "00:05:69";
    } else if i == 1 {
      EntrySpellsOui1();
      assert VirtualOuis[1] == [0x00, 0x0c, 0x29] && FoldedPrefixes[1] == "00:0c:29";
    } else if i == 2 {
      EntrySpellsOui2();
      assert VirtualOuis[2] == [0x00, 0x50, 0x56] && FoldedPrefixes[2] == "00:50:56";
    } else {
      EntrySpellsOui3();
      assert VirtualOuis[3] == [0x08, 0x00, 0x27] && FoldedPrefixes[3] == "08:00:27";
    }
  }

  lemma LastFourSpellOuis(i: nat)
    requires 4 <= i < |VirtualOuis|
    ensures FoldedPrefixes[i] == NetAddr.MacString(VirtualOuis[i])
  {
    if i == 4 {
      EntrySpellsOui4();
      assert VirtualOuis[4] == [0x52, 0x54, 0x00] && FoldedPrefixes[4] == "52:54:00";
    } else if i == 5 {
      EntrySpellsOui5();
      assert VirtualOuis[5] == [0x00, 0x1c, 0x42] && FoldedPrefixes[5] == "00:1c:42";
    } else if i == 6 {
      EntrySpellsOui6();
      assert VirtualOuis[6] == [0x00, 0x16, 0x3e] && FoldedPrefixes[6] == "00:16:3e";
    } else {
      EntrySpellsOui7();
      assert VirtualOuis[7] == [0x00, 0x1d, 0xd8] && FoldedPrefixes[7] == "00:1d:d8";
    }
  }

  lemma EntrySpellsOui0()
    ensures NetAddr.MacString([0x00, 0x05, 0x69]) == "00:05:69"
  {
    OuiText(0x00, 0x05, 0x69);
    assert Hex.EncodeByte(0x00) == "00";
    assert Hex.EncodeByte(0x05) == "05";
    assert Hex.EncodeByte(0x69) == "69";
  }

  lemma EntrySpellsOui1()
    ensures NetAddr.MacString([0x00, 0x0c, 0x29]) == "00:0c:29"
  {
    OuiText(0x00, 0x0c, 0x29);
    assert Hex.EncodeByte(0x00) == "00";
    assert Hex.EncodeByte(0x0c) == "0c";
    assert Hex.EncodeByte(0x29) == "29";
  }

  lemma EntrySpellsOui2()
    ensures NetAddr.MacString([0x00, 0x50, 0x56]) == "00:50:56"
  {
    OuiText(0x00, 0x50, 0x56);
    assert Hex.EncodeByte(0x00) == "00";
    assert Hex.EncodeByte(0x50) == "50";
    assert Hex.EncodeByte(0x56) == "56";
  }

  lemma EntrySpellsOui3()
    ensures NetAddr.MacString([0x08, 0x00, 0x27]) == "08:00:27"
  {
    OuiText(0x08, 0x00, 0x27);
    assert Hex.EncodeByte(0x08) == "08";
    assert Hex.EncodeByte(0x00) == "00";
    assert Hex.EncodeByte(0x27) == "27";
  }

  lemma EntrySpellsOui4()
    ensures NetAddr.MacString([0x52, 0x54, 0x00]) == "52:54:00"
  {
    OuiText(0x52, 0x54, 0x00);
    assert Hex.EncodeByte(0x52) == "52";
    assert Hex.EncodeByte(0x54) == "54";
    assert Hex.EncodeByte(0x00) == "00";
  }

  lemma EntrySpellsOui5()
    ensures NetAddr.MacString([0x00, 0x1c, 0x42]) == "00:1c:42"
  {
    OuiText(0x00, 0x1c, 0x42);
    assert Hex.EncodeByte(0x00) == "00";
    assert Hex.EncodeByte(0x1c) == "1c";
    assert Hex.EncodeByte(0x42) == "42";
  }

  lemma EntrySpellsOui6()
    ensures NetAddr.MacString([0x00, 0x16, 0x3e]) == "00:16:3e"
  {
    OuiText(0x00, 0x16, 0x3e);
    assert Hex.EncodeByte(0x00) == "00";
    assert Hex.EncodeByte(0x16) == "16";
    assert Hex.EncodeByte(0x3e) == "3e";
  }

  lemma EntrySpellsOui7()
    ensures NetAddr.MacString([0x00, 0x1d, 0xd8]) == "00:1d:d8"
  {
    OuiText(0x00, 0x1d, 0xd8);
    assert Hex.EncodeByte(0x00) == "00";
    assert Hex.EncodeByte(0x1d) == "1d";
    assert Hex.EncodeByte(0xd8) == "d8";
  }

  /** A hardware address with a listed vendor identifier is rejected by the
      corrected filter. */
  lemma FixedFilterCatchesVendorOui(hw: seq<byte>, i: nat)
    requires i < |VirtualOuis| && |hw| >= 3 && hw[..3] == VirtualOuis[i]
    ensures IsVirtualOrVPNFixed(NetAddr.MacString(hw))
  {
    FoldedPrefixSpellsOui(i);
    NetAddr.MacStringOui(hw);
    assert FoldedPrefixes[i] <= NetAddr.MacString(hw);
  }

  /** A hardware address the corrected filter rejects carries a listed vendor
      identifier. */
  lemma FixedFilterOnlyVendorOuis(hw: seq<byte>) returns (i: nat)
    requires IsVirtualOrVPNFixed(NetAddr.MacString(hw))
    ensures i < |VirtualOuis| && |hw| >= 3 && hw[..3] == VirtualOuis[i]
  {
    var s := NetAddr.MacString(hw);
    i :| 0 <= i < |FoldedPrefixes| && FoldedPrefixes[i] <= s;
    assert |FoldedPrefixes[i]| == 8;
    FoldedPrefixSpellsOui(i);
    NetAddr.MacStringOui(hw);
    assert NetAddr.MacString(VirtualOuis[i]) == NetAddr.MacString(hw[..3]);
    NetAddr.MacStringInjective(VirtualOuis[i], hw[..3]);
  }

  /** The corrected filter rejects exactly the hardware addresses whose first
      three bytes are one of the listed vendor identifiers. */
  lemma FixedFilterMatchesVendorOuis(hw: seq<byte>)
    ensures IsVirtualOrVPNFixed(NetAddr.MacString(hw)) <==>
      |hw| >= 3 && exists i :: 0 <= i < |VirtualOuis| && hw[..3] == VirtualOuis[i]
  {
    if |hw| >= 3 && exists i :: 0 <= i < |VirtualOuis| && hw[..3] == VirtualOuis[i] {
      var i :| 0 <= i < |VirtualOuis| && hw[..3] == VirtualOuis[i];
      FixedFilterCatchesVendorOui(hw, i);
    }
    if IsVirtualOrVPNFixed(NetAddr.MacString(hw)) {
      var i := FixedFilterOnlyVendorOuis(hw);
    }
  }
}

=== FILE: netaddr.dfy ===
/** The parts of Go's `net` package the address resolver consults: IP byte
    slices (`To4`, `IsLoopback`, `String`) and the text form of a hardware
    address. */
module NetAddr {
  import opened Prelude
  import Hex

  /** An entry of `iface.Addrs()`: a `*net.IPNet` carrying an IP, or any other
      `net.Addr` implementation, which the type assertion rejects. */
  datatype Addr = IPNet(ip: seq<byte>) | OtherAddr

  /** `::1`. */
  const IPv6Loopback: seq<byte> := [0, 0, 0, 0, 0, 0, 0, 0, 0, 0, 0, 0, 0, 0, 0, 1]

  /** The ten zero bytes and two 0xff bytes that open an IPv4-mapped IPv6 address. */
  const V4InV6Prefix: seq<byte> := [0, 0, 0, 0, 0, 0, 0, 0, 0, 0, 255, 255]

  /** `ip.To4()`: a 4-byte IP as is, the last four bytes of an IPv4-mapped
      16-byte IP, and `nil` (`None`) for anything else. */
  function To4(ip: seq<byte>): (r: Option<seq<byte>>)
    ensures r.Some? <==> |ip| == 4 || (|ip| == 16 && V4InV6Prefix <= ip)
    ensures r.Some? ==> |r.value| == 4 && r.value <= ip[|ip| - 4..]
  {
    if |ip| == 4 then Some(ip)
    else if |ip| == 16 && ip[..12] == V4InV6Prefix then Some(ip[12..])
    else None
  }

  /** `ip.IsLoopback()`: 127/8 for IPv4 forms, `::1` otherwise. */
  function IsLoopback(ip: seq<byte>): (b: bool)
    ensures b <==> ((|ip| == 4 && ip[0] == 127)
                    || (|ip| == 16 && V4InV6Prefix <= ip && ip[12] == 127)
                    || ip == IPv6Loopback)
  {
    assert IPv6Loopback[10] != V4InV6Prefix[10];
    match To4(ip)
    case Some(v4) => v4[0] == 127
    case None => ip == IPv6Loopback
  }

  predicate IsDecimalDigit(c: char) {
    '0' <= c <= '9'
  }

  /** The decimal text of `n` without leading zeros. */
  function Decimal(n: nat): (s: string)
    ensures 0 < |s|
    ensures forall i :: 0 <= i < |s| ==> IsDecimalDigit(s[i])
    ensures |s| > 1 ==> s[0] != '0'
    ensures n < 10 ==> |s| == 1
    ensures n < 100 ==> |s| <= 2
    ensures n < 1000 ==> |s| <= 3
  {
    if n < 10 then [('0' as int + n) as char]
    else Decimal(n / 10) + [('0' as int + n % 10) as char]
  }

  /** The number a string of decimal digits spells. */
  function ParseDecimal(s: string): nat
    requires forall i :: 0 <= i < |s| ==> IsDecimalDigit(s[i])
  {
    if |s| == 0 then 0
    else
      assert IsDecimalDigit(s[|s| - 1]);
      ParseDecimal(s[..|s| - 1]) * 10 + (s[|s| - 1] as int - '0' as int)
  }

  /** Reading back the decimal text gives the number. */
  lemma {:induction false} ParseDecimalOfDecimal(n: nat)
    ensures ParseDecimal(Decimal(n)) == n
  {
    if n >= 10 {
      var s := Decimal(n);
      assert s[..|s| - 1] == Decimal(n / 10);
      ParseDecimalOfDecimal(n / 10);
    }
  }

  /** `ip.String()` for a 4-byte IP: dotted-decimal notation. */
  function DottedQuad(v4: seq<byte>): (s: string)
    requires |v4| == 4
    ensures forall i :: 0 <= i < |s| ==> IsDecimalDigit(s[i]) || s[i] == '.'
    ensures 7 <= |s| <= 15
  {
    Decimal(v4[0]) + "." + Decimal(v4[1]) + "." + Decimal(v4[2]) + "." + Decimal(v4[3])
  }

  /** The position of the first dot of `s`, or its length when it has none. */
  function DotIndex(s: string): nat {
    if |s| == 0 || s[0] == '.' then 0 else 1 + DotIndex(s[1..])
  }

  /** Digits followed by a dot: the first dot is right after the digits. */
  lemma {:induction false} DotIndexAfterDigits(x: string, y: string)
    requires forall i :: 0 <= i < |x| ==> IsDecimalDigit(x[i])
    ensures DotIndex(x + "." + y) == |x|
  {
    if |x| > 0 {
      assert (x + "." + y)[1..] == x[1..] + "." + y;
      DotIndexAfterDigits(x[1..], y);
    }
  }

  /** Two strings each cut at their first dot: equal strings give equal
      pieces. */
  lemma SplitAtFirstDot(x: string, y: string, x': string, y': string)
    requires forall i :: 0 <= i < |x| ==> IsDecimalDigit(x[i])
    requires forall i :: 0 <= i < |x'| ==> IsDecimalDigit(x'[i])
    requires x + "." + y == x' + "." + y'
    ensures x == x' && y == y'
  {
    var s := x + "." + y;
    DotIndexAfterDigits(x, y);
    DotIndexAfterDigits(x', y');
    assert x == s[..|x|] == x';
    assert y == s[|x| + 1..] == y';
  }

  /** The decimal text determines the number. */
  lemma DecimalInjective(m: nat, n: nat)
    requires Decimal(m) == Decimal(n)
    ensures m == n
  {
    ParseDecimalOfDecimal(m);
    ParseDecimalOfDecimal(n);
  }

  /** A dotted quad cut at its first dot. */
  lemma DottedQuadParts(v4: seq<byte>)
    requires |v4| == 4
    ensures DottedQuad(v4)
         == Decimal(v4[0]) + "." + (Decimal(v4[1]) + "." + (Decimal(v4[2]) + "." + Decimal(v4[3])))
  {
  }

  /** Distinct IPv4 addresses have distinct dotted-quad texts: the text
      spells all four bytes. */
  lemma DottedQuadInjective(a: seq<byte>, b: seq<byte>)
    requires |a| == 4 && |b| == 4
    ensures DottedQuad(a) == DottedQuad(b) <==> a == b
  {
    if DottedQuad(a) == DottedQuad(b) {
      var a1, a2, a3 := Decimal(a[1]), Decimal(a[2]), Decimal(a[3]);
      var b1, b2, b3 := Decimal(b[1]), Decimal(b[2]), Decimal(b[3]);
      DottedQuadParts(a);
      DottedQuadParts(b);
      SplitAtFirstDot(Decimal(a[0]), a1 + "." + (a2 + "." + a3), Decimal(b[0]), b1 + "." + (b2 + "." + b3));
      SplitAtFirstDot(a1, a2 + "." + a3, b1, b2 + "." + b3);
      SplitAtFirstDot(a2, a3, b2, b3);
      DecimalInjective(a[0], b[0]);
      DecimalInjective(a[1], b[1]);
      DecimalInjective(a[2], b[2]);
      DecimalInjective(a[3], b[3]);
      assert a == [a[0], a[1], a[2], a[3]] && b == [b[0], b[1], b[2], b[3]];
    }
  }

  /** A private-network address is written most significant byte first. */
  lemma DottedQuadExample()
    ensures DottedQuad([192, 168, 1, 20]) == "192.168.1.20"
  {
    assert Decimal(192) == "192" && Decimal(168) == "168";
    assert Decimal(1) == "1" && Decimal(20) == "20";
  }

  /** `HardwareAddr.String()`: each byte as two lower-case hex digits, the
      bytes separated by colons; the empty address gives the empty string. */
  function MacString(hw: seq<byte>): (s: string)
    ensures |hw| > 0 ==> |s| == 3 * |hw| - 1
    ensures |hw| == 0 ==> s == ""
    ensures forall i :: 0 <= i < |s| ==> Hex.IsLowerHexDigit(s[i]) || s[i] == ':'
  {
    if |hw| == 0 then ""
    else if |hw| == 1 then Hex.EncodeByte(hw[0])
    else Hex.EncodeByte(hw[0]) + ":" + MacString(hw[1..])
  }

  /** The text of the first three bytes opens the text of the whole address. */
  lemma {:induction false} MacStringOui(hw: seq<byte>)
    requires |hw| >= 3
    ensures MacString(hw[..3]) == MacString(hw)[..8]
    ensures MacString(hw[..3])
         == Hex.EncodeByte(hw[0]) + ":" + Hex.EncodeByte(hw[1]) + ":" + Hex.EncodeByte(hw[2])
  {
    var oui := hw[..3];
    assert oui[1..] == hw[1..3];
    assert oui[1..][1..] == [hw[2]];
    assert MacString(oui[1..]) == Hex.EncodeByte(hw[1]) + ":" + Hex.EncodeByte(hw[2]);
    if |hw| == 3 {
      assert hw == oui;
    } else {
      var tail := hw[1..];
      assert MacString(hw) == Hex.EncodeByte(hw[0]) + ":" + MacString(tail);
      assert tail[1..][0] == hw[2];
      assert MacString(tail) == Hex.EncodeByte(hw[1]) + ":" + MacString(tail[1..]);
      var t2 := tail[1..];
      assert MacString(t2) == Hex.EncodeByte(hw[2]) + ":" + MacString(t2[1..]);
      assert MacString(t2)[..2] == Hex.EncodeByte(hw[2]);
    }
  }

  /** Distinct hardware addresses have distinct text forms. */
  lemma {:induction false} MacStringInjective(a: seq<byte>, b: seq<byte>)
    requires MacString(a) == MacString(b)
    ensures a == b
  {
    if |a| > 0 {
      assert |b| > 0;
      var s := MacString(a);
      assert s[..2] == Hex.EncodeByte(a[0]);
      assert s[..2] == Hex.EncodeByte(b[0]);
      Hex.EncodeByteInjective(a[0], b[0]);
      if |a| > 1 {
        assert s[3..] == MacString(a[1..]);
        assert s[3..] == MacString(b[1..]);
        MacStringInjective(a[1..], b[1..]);
        assert a == [a[0]] + a[1..];
        assert b == [b[0]] + b[1..];
      }
    }
  }
}

=== FILE: paths.dfy ===
/** `filepath.Base` and `filepath.Ext` for paths whose only separator is '/'. */
module Paths {

  const Separator: char := '/'

  /** The path with every trailing separator removed. */
  function TrimTrailingSeparators(p: string): (r: string)
    ensures r <= p
    ensures |r| == 0 || r[|r| - 1] != Separator
    ensures forall i :: |r| <= i < |p| ==> p[i] == Separator
  {
    if |p| > 0 && p[|p| - 1] == Separator then TrimTrailingSeparators(p[..|p| - 1]) else p
  }

  /** Everything after the last separator (all of `p` when it has none). */
  function LastElement(p: string): (r: string)
    ensures Separator !in r
    ensures |r| <= |p| && r == p[|p| - |r|..]
    ensures |r| < |p| ==> p[|p| - |r| - 1] == Separator
  {
    if |p| == 0 || p[|p| - 1] == Separator then ""
    else LastElement(p[..|p| - 1]) + [p[|p| - 1]]
  }

  /** `filepath.Base`: "." for the empty path, "/" for a path of separators
      only, otherwise the last element after trailing separators are dropped. */
  function Base(p: string): (r: string)
    ensures r != ""
    ensures p == "" ==> r == "."
    ensures r == "/" || Separator !in r
  {
    if p == "" then "."
    else
      var e := LastElement(TrimTrailingSeparators(p));
      if e == "" then [Separator] else e
  }

  /** The base name of `dir + "/" + name` is `name` when `name` is a
      non-empty element. */
  lemma BaseOfJoin(dir: string, name: string)
    requires name != "" && Separator !in name
    ensures Base(dir + [Separator] + name) == name
  {
    var p := dir + [Separator] + name;
    assert TrimTrailingSeparators(p) == p by {
      assert p[|p| - 1] == name[|name| - 1];
    }
    LastElementOfJoin(dir, name);
  }

  /** A path of one non-empty element is its own base name. */
  lemma BaseOfElement(name: string)
    requires name != "" && Separator !in name
    ensures Base(name) == name
  {
    assert TrimTrailingSeparators(name) == name by {
      assert name[|name| - 1] in name;
    }
    LastElementOfElement(name);
  }

  lemma {:induction false} LastElementOfElement(name: string)
    requires Separator !in name
    ensures LastElement(name) == name
    decreases |name|
  {
    if |name| > 0 {
      assert name[|name| - 1] in name;
      LastElementOfElement(name[..|name| - 1]);
      assert name[..|name| - 1] + [name[|name| - 1]] == name;
    }
  }

  lemma {:induction false} LastElementOfJoin(dir: string, name: string)
    requires Separator !in name
    ensures LastElement(dir + [Separator] + name) == name
    decreases |name|
  {
    var p := dir + [Separator] + name;
    if |name| > 0 {
      var q := dir + [Separator] + name[..|name| - 1];
      assert p[..|p| - 1] == q;
      assert p[|p| - 1] == name[|name| - 1];
      LastElementOfJoin(dir, name[..|name| - 1]);
      assert name[..|name| - 1] + [name[|name| - 1]] == name;
    }
  }

  /** `filepath.Ext`: the suffix from the last '.' of the last element, or
      "" when the last element has no '.'. */
  function Ext(p: string): (r: string)
    ensures |r| <= |p| && r == p[|p| - |r|..]
    ensures r != "" ==> r[0] == '.' && '.' !in r[1..] && Separator !in r
    ensures r == "" ==> forall i :: 0 <= i < |p| && p[i] == '.' ==> Separator in p[i..]
  {
    if |p| == 0 then ""
    else
      var c := p[|p| - 1];
      if c == Separator then ""
      else if c == '.' then [c]
      else
        var e := Ext(p[..|p| - 1]);
        if e == "" then
          assert forall i :: 0 <= i < |p| - 1 ==> p[i..] == p[..|p| - 1][i..] + [c];
          ""
        else
          assert p[..|p| - 1][|p| - 1 - |e|..] + [c] == p[|p| - |e| - 1..];
          e + [c]
  }

  /** The extension of `stem + "." + tail` is `"." + tail` when `tail` holds
      neither a '.' nor a separator. */
  lemma {:induction false} ExtOfSuffix(stem: string, tail: string)
    requires '.' !in tail && Separator !in tail
    ensures Ext(stem + "." + tail) == "." + tail
    decreases |tail|
  {
    var p := stem + "." + tail;
    if |tail| > 0 {
      var q := stem + "." + tail[..|tail| - 1];
      assert p[..|p| - 1] == q;
      assert p[|p| - 1] == tail[|tail| - 1];
      ExtOfSuffix(stem, tail[..|tail| - 1]);
      assert "." + tail[..|tail| - 1] + [tail[|tail| - 1]] == "." + tail;
    } else {
      assert p[|p| - 1] == '.';
    }
  }
}

=== FILE: prelude.dfy ===
/** Types shared by every module of the model. */
module Prelude {

  /** Go's `byte`: an unsigned 8-bit value. */
  type byte = b: int | 0 <= b < 256

  /** A value that may be absent; `None` plays the part of Go's `ok == false`. */
  datatype Option<+T> = None | Some(value: T)
}

=== FILE: registry.dfy ===
/** The publication registry `fileMap`: token to file path. Access is
    serialised by a mutex in the program; the model is sequential. */
module Registry {

  type FileMap = map<string, string>

  const Empty: FileMap := map[]

  /** `fileMap[token] = path`: the token now names the path and every other
      entry is untouched; a fresh token adds exactly one entry. */
  function Publish(files: FileMap, token: string, path: string): (r: FileMap)
    ensures token in r && r[token] == path
    ensures forall k :: k != token ==> (k in r <==> k in files)
    ensures forall k :: k != token && k in files ==> r[k] == files[k]
    ensures |r| == if token in files then |files| else |files| + 1
  {
    files[token := path]
  }

  /** `fileMap[token]` as Go reads it: the stored path, or the empty string
      for a key that is not present. */
  function Read(files: FileMap, token: string): (path: string)
    ensures token in files ==> path == files[token]
    ensures token !in files ==> path == ""
  {
    if token in files then files[token] else ""
  }

  /** Reading back a published token gives its path, and publishing one
      token does not change what any other token reads. */
  lemma PublishThenRead(files: FileMap, token: string, path: string, other: string)
    ensures Read(Publish(files, token, path), token) == path
    ensures other != token ==> Read(Publish(files, token, path), other) == Read(files, other)
  {
  }

  /** Publishing the same path under two distinct fresh tokens leaves two
      entries, both naming the path: nothing is deduplicated by path. */
  lemma PublishSamePathTwice(files: FileMap, t1: string, t2: string, path: string)
    requires t1 != t2 && t1 !in files && t2 !in files
    ensures var r := Publish(Publish(files, t1, path), t2, path);
      && Read(r, t1) == path && Read(r, t2) == path
      && |r| == |files| + 2
  {
  }
}

=== FILE: resolver.dfy ===
/** `getConnectedPhysicalIP`: the IPv4 address advertised in download URLs.
    The operating system's interface enumeration is an input; the
    virtual-adapter test is a parameter so that the filter as written and
    its corrected form can both be plugged in. */
module Resolver {
  import opened Prelude
  import opened NetAddr
  import Strings
  import MacFilter

  /** The result of `iface.Addrs()`. */
  datatype AddrList = Addrs(list: seq<Addr>) | AddrsFailed

  /** One entry of `net.Interfaces()`, reduced to what the resolver reads. */
  datatype Interface = Interface(
    name: string,
    up: bool,
    loopback: bool,
    hardwareAddr: seq<byte>,
    addrs: AddrList)

  /** The result of `net.Interfaces()`. */
  datatype Enumeration = Interfaces(list: seq<Interface>) | EnumerationFailed

  /** Returned when no address qualifies or enumeration fails. */
  const Fallback: string := "localhost"

  /** The interface passes every filter: up, not loopback, a non-empty
      hardware address that the virtual test does not reject, and a name
      without "VPN". */
  predicate Qualifies(iface: Interface, isVirtual: string -> bool)
    ensures Qualifies(iface, isVirtual) ==>
      MacString(iface.hardwareAddr) != "" && !isVirtual(MacString(iface.hardwareAddr))
    ensures Qualifies(iface, isVirtual) <==>
      && iface.up && !iface.loopback && |iface.hardwareAddr| > 0
      && !isVirtual(MacString(iface.hardwareAddr))
      && forall i: nat :: !Strings.OccursAt(iface.name, "VPN", i)
  {
    && iface.up
    && !iface.loopback
    && |iface.hardwareAddr| > 0
    && !isVirtual(MacString(iface.hardwareAddr))
    && !Strings.Contains(iface.name, "VPN")
  }

  /** An address the inner loop accepts: an `*net.IPNet` whose IP is not a
      loopback address and has an IPv4 form. */
  predicate Usable(a: Addr)
    ensures Usable(a) <==> a.IPNet? && ((|a.ip| == 4 && a.ip[0] != 127)
                                       || (|a.ip| == 16 && V4InV6Prefix <= a.ip && a.ip[12] != 127))
  {
    a.IPNet? && !IsLoopback(a.ip) && To4(a.ip).Some?
  }

  /** The position of the first usable address of a list, or the length of
      the list when none is usable. */
  function FirstUsable(addrs: seq<Addr>): (n: nat)
    ensures n <= |addrs|
    ensures n < |addrs| ==> Usable(addrs[n])
    ensures forall j :: 0 <= j < n ==> !Usable(addrs[j])
  {
    if |addrs| == 0 then 0
    else if Usable(addrs[0]) then 0
    else
      var n := FirstUsable(addrs[1..]);
      assert forall j :: 1 <= j < n + 1 ==> addrs[j] == addrs[1..][j - 1];
      n + 1
  }

  /** The IPv4 form of the first usable address of a list. */
  function FirstIPv4(addrs: seq<Addr>): (r: Option<seq<byte>>)
    ensures r.None? <==> forall i :: 0 <= i < |addrs| ==> !Usable(addrs[i])
    ensures r.Some? ==> exists i :: 0 <= i < |addrs| && Usable(addrs[i]) && r == To4(addrs[i].ip)
                                    && forall j :: 0 <= j < i ==> !Usable(addrs[j])
  {
    var n := FirstUsable(addrs);
    if n < |addrs| then To4(addrs[n].ip) else None
  }

  /** What one interface contributes: the first usable IPv4 address when the
      interface qualifies and its address list was read; an interface whose
      list fails is skipped. */
  function Candidate(iface: Interface, isVirtual: string -> bool): Option<seq<byte>> {
    if Qualifies(iface, isVirtual) && iface.addrs.Addrs? then FirstIPv4(iface.addrs.list) else None
  }

  /** The position of the first present value, or the length when none is. */
  function FirstSome<T>(xs: seq<Option<T>>): (n: nat)
    ensures n <= |xs|
    ensures n < |xs| ==> xs[n].Some?
    ensures forall j :: 0 <= j < n ==> xs[j].None?
  {
    if |xs| == 0 then 0
    else if xs[0].Some? then 0
    else
      var n := FirstSome(xs[1..]);
      assert forall j :: 1 <= j < n + 1 ==> xs[j] == xs[1..][j - 1];
      n + 1
  }

  /** The position of the first interface that contributes an address, or
      the length of the list when none does. */
  function FirstContributor(ifaces: seq<Interface>, isVirtual: string -> bool): (n: nat)
    ensures n <= |ifaces|
    ensures n < |ifaces| ==> Candidate(ifaces[n], isVirtual).Some?
    ensures forall j :: 0 <= j < n ==> Candidate(ifaces[j], isVirtual).None?
  {
    var cands := seq(|ifaces|, i requires 0 <= i < |ifaces| => Candidate(ifaces[i], isVirtual));
    var n := FirstSome(cands);
    assert forall j :: 0 <= j < n ==> cands[j] == Candidate(ifaces[j], isVirtual);
    n
  }

  /** The advertised address as a pure function over the enumeration: the
      candidate of the first interface that has one. */
  function Select(ifaces: seq<Interface>, isVirtual: string -> bool): (r: Option<seq<byte>>)
    ensures r.None? <==> forall i :: 0 <= i < |ifaces| ==> Candidate(ifaces[i], isVirtual).None?
    ensures r.Some? ==> exists i :: 0 <= i < |ifaces| && r == Candidate(ifaces[i], isVirtual)
                                    && forall j :: 0 <= j < i ==> Candidate(ifaces[j], isVirtual).None?
  {
    var n := FirstContributor(ifaces, isVirtual);
    if n < |ifaces| then Candidate(ifaces[n], isVirtual) else None
  }

  /** The string the program advertises, as a function of the enumeration. */
  function Advertised(e: Enumeration, isVirtual: string -> bool): (ip: string)
    ensures ip == Fallback
         || (e.Interfaces? && exists i :: (0 <= i < |e.list| && Candidate(e.list[i], isVirtual).Some?
               && ip == DottedQuad(Candidate(e.list[i], isVirtual).value)))
  {
    match e
    case EnumerationFailed => Fallback
    case Interfaces(ifaces) =>
      match Select(ifaces, isVirtual)
      case None => Fallback
      case Some(v4) => DottedQuad(v4)
  }

  /** The inner loop of `getConnectedPhysicalIP`: scan the addresses of one
      interface for the first usable one. */
  method ScanAddrs(addrs: seq<Addr>) returns (v4: Option<seq<byte>>)
    ensures v4 == FirstIPv4(addrs)
  {
    var k := 0;
    while k < |addrs|
      invariant k <= |addrs|
      invariant k <= FirstUsable(addrs)
    {
      var a := addrs[k];
      if a.IPNet? && !IsLoopback(a.ip) {
        var ip4 := To4(a.ip);
        if ip4.Some? {
          return ip4;
        }
      }
      k := k + 1;
    }
    return None;
  }

  /** `getConnectedPhysicalIP`: the outer loop over interfaces returns the
      text of the first usable address of the first interface that passes
      every filter; it computes the advertised address of the recursive
      definition. */
  method GetConnectedPhysicalIP(e: Enumeration, isVirtual: string -> bool) returns (ip: string)
    ensures ip == Advertised(e, isVirtual)
  {
    if e.EnumerationFailed? {
      return Fallback;
    }
    var ifaces := e.list;
    var n := 0;
    while n < |ifaces|
      invariant n <= |ifaces|
      invariant n <= FirstContributor(ifaces, isVirtual)
    {
      var iface := ifaces[n];
      if !iface.up || iface.loopback || |iface.hardwareAddr| == 0
         || isVirtual(MacString(iface.hardwareAddr))
         || Strings.Contains(iface.name, "VPN")
         || iface.addrs.AddrsFailed?
      {
        n := n + 1;
        continue;
      }
      var v4 := ScanAddrs(iface.addrs.list);
      if v4.Some? {
        assert Candidate(iface, isVirtual) == v4;
        assert FirstContributor(ifaces, isVirtual) == n;
        assert Select(ifaces, isVirtual) == v4;
        return DottedQuad(v4.value);
      }
      n := n + 1;
    }
    assert Select(ifaces, isVirtual).None?;
    return Fallback;
  }

  /** First match: when interface `i` is the first to contribute an address,
      the advertised string is the text of that address. */
  lemma AdvertisedFirstMatch(ifaces: seq<Interface>, isVirtual: string -> bool, i: nat)
    requires i < |ifaces| && Candidate(ifaces[i], isVirtual).Some?
    requires forall j :: 0 <= j < i ==> Candidate(ifaces[j], isVirtual).None?
    ensures Advertised(Interfaces(ifaces), isVirtual) == DottedQuad(Candidate(ifaces[i], isVirtual).value)
  {
    assert FirstContributor(ifaces, isVirtual) == i;
    assert Select(ifaces, isVirtual) == Candidate(ifaces[i], isVirtual);
  }

  /** The dotted-quad text of an address can never be confused with the fallback. */
  lemma DottedQuadIsNotFallback(v4: seq<byte>)
    requires |v4| == 4
    ensures DottedQuad(v4) != Fallback
  {
    assert Fallback[0] == 'l';
  }

  /** The advertised string is the fallback, or the IPv4 address of an
      interface that is up, not loopback, has a hardware address the virtual
      test accepts and a name without "VPN", and that address is not a
      loopback address. */
  lemma AdvertisedQualifies(e: Enumeration, isVirtual: string -> bool)
    ensures Advertised(e, isVirtual) == Fallback
         || (e.Interfaces? && exists i, k :: (0 <= i < |e.list| && Qualifies(e.list[i], isVirtual)
               && e.list[i].addrs.Addrs? && 0 <= k < |e.list[i].addrs.list|
               && Usable(e.list[i].addrs.list[k])
               && Advertised(e, isVirtual) == DottedQuad(To4(e.list[i].addrs.list[k].ip).value)))
  {
    if e.Interfaces? && Select(e.list, isVirtual).Some? {
      var i :| 0 <= i < |e.list| && Select(e.list, isVirtual) == Candidate(e.list[i], isVirtual);
      var addrs := e.list[i].addrs.list;
      var k :| 0 <= k < |addrs| && Usable(addrs[k]) && FirstIPv4(addrs) == To4(addrs[k].ip);
    }
  }

  /** The fallback is advertised exactly when enumeration fails or no
      interface contributes an address. */
  lemma AdvertisedFallbackIff(e: Enumeration, isVirtual: string -> bool)
    ensures Advertised(e, isVirtual) == Fallback <==>
      (e.EnumerationFailed? || forall i :: 0 <= i < |e.list| ==> Candidate(e.list[i], isVirtual).None?)
  {
    if e.Interfaces? && Select(e.list, isVirtual).Some? {
      DottedQuadIsNotFallback(Select(e.list, isVirtual).value);
    }
  }

  /** The address the program advertises, using the filter as written. */
  function PhysicalIP(e: Enumeration): (ip: string)
    ensures ip == Fallback <==>
      (e.EnumerationFailed? || forall i :: 0 <= i < |e.list| ==> Candidate(e.list[i], MacFilter.IsVirtualOrVPN).None?)
  {
    AdvertisedFallbackIff(e, MacFilter.IsVirtualOrVPN);
    Advertised(e, MacFilter.IsVirtualOrVPN)
  }

  /** The address advertised with the corrected filter. */
  function PhysicalIPFixed(e: Enumeration): (ip: string)
    ensures ip == Fallback <==>
      (e.EnumerationFailed? || forall i :: 0 <= i < |e.list| ==> Candidate(e.list[i], MacFilter.IsVirtualOrVPNFixed).None?)
  {
    AdvertisedFallbackIff(e, MacFilter.IsVirtualOrVPNFixed);
    Advertised(e, MacFilter.IsVirtualOrVPNFixed)
  }

  /** A loopback interface with an IPv4 address. */
  const LoopbackIface: Interface :=
    Interface("lo", true, true, [], Addrs([IPNet([127, 0, 0, 1])]))

  /** An adapter named "vmnet8" with hardware address `mac` and one address `v4`. */
  function VMwareIface(mac: seq<byte>, v4: seq<byte>): Interface {
    Interface("vmnet8", true, false, mac, Addrs([IPNet(v4)]))
  }

  /** A host with a loopback interface and a VMware adapter of identifier
      00:50:56 advertises the fallback, never the adapter's address. */
  lemma LoopbackAndVMwareGiveFallback(hw: seq<byte>, v4: seq<byte>)
    requires |hw| >= 3 && hw[..3] == [0x00, 0x50, 0x56]
    ensures PhysicalIP(Interfaces([LoopbackIface, VMwareIface(hw, v4)])) == Fallback
  {
    var ifaces := [LoopbackIface, VMwareIface(hw, v4)];
    NetAddr.MacStringOui(hw);
    MacFilter.EntrySpellsOui2();
    assert MacFilter.VirtualPrefixes[2] <= MacString(hw);
    assert Candidate(ifaces[0], MacFilter.IsVirtualOrVPN).None?;
    assert Candidate(ifaces[1], MacFilter.IsVirtualOrVPN).None?;
    AdvertisedFallbackIff(Interfaces(ifaces), MacFilter.IsVirtualOrVPN);
  }

  /** The adapter name "vmnet8" does not contain "VPN". */
  lemma Vmnet8IsNotVPN()
    ensures !Strings.Contains("vmnet8", "VPN")
  {
    assert forall k :: 0 <= k < 6 ==> "vmnet8"[k] != 'V';
  }

  /** With identifier 00:0c:29 the same kind of host advertises the VMware
      adapter's address under the filter as written. */
  lemma VMwareAdapterAdvertised(hw: seq<byte>, v4: seq<byte>)
    requires |hw| >= 3 && hw[..3] == [0x00, 0x0c, 0x29]
    requires |v4| == 4 && v4[0] != 127
    ensures PhysicalIP(Interfaces([LoopbackIface, VMwareIface(hw, v4)])) == DottedQuad(v4)
  {
    var ifaces := [LoopbackIface, VMwareIface(hw, v4)];
    MacFilter.VMwareAdapterSlipsThrough(hw);
    Vmnet8IsNotVPN();
    assert Qualifies(ifaces[1], MacFilter.IsVirtualOrVPN);
    assert Usable(IPNet(v4));
    assert Candidate(ifaces[1], MacFilter.IsVirtualOrVPN) == Some(v4);
    assert Candidate(ifaces[0], MacFilter.IsVirtualOrVPN).None?;
    AdvertisedFirstMatch(ifaces, MacFilter.IsVirtualOrVPN, 1);
  }

  /** The corrected filter rejects the 00:0c:29 adapter, so the host
      advertises the fallback. */
  lemma VMwareAdapterRejectedWhenFixed(hw: seq<byte>, v4: seq<byte>)
    requires |hw| >= 3 && hw[..3] == [0x00, 0x0c, 0x29]
    ensures PhysicalIPFixed(Interfaces([LoopbackIface, VMwareIface(hw, v4)])) == Fallback
  {
    var ifaces := [LoopbackIface, VMwareIface(hw, v4)];
    assert hw[..3] == MacFilter.VirtualOuis[1];
    MacFilter.FixedFilterCatchesVendorOui(hw, 1);
    assert Candidate(ifaces[0], MacFilter.IsVirtualOrVPNFixed).None?;
    assert Candidate(ifaces[1], MacFilter.IsVirtualOrVPNFixed).None?;
    AdvertisedFallbackIff(Interfaces(ifaces), MacFilter.IsVirtualOrVPNFixed);
  }
}

=== FILE: serving.dfy ===
/** The per-token download handler: the headers it sets before handing the
    file to `http.ServeFile`. */
module Serving {
  import Paths
  import Registry

  const OctetStream: string := "application/octet-stream"

  /** The handler's extension table, keyed by the extension with its dot. */
  const ContentTypes: map<string, string> := map[
    ".txt" := "text/plain",
    ".jpg" := "image/jpeg",
    ".png" := "image/png",
    ".pdf" := "application/pdf",
    ".mp3" := "audio/mpeg",
    ".mp4" := "video/mp4",
    ".zip" := "application/zip",
    ".exe" := OctetStream,
    ".tar" := "application/x-tar"
  ]

  /** Every value the Content-Type header can take. */
  const KnownTypes: set<string> :=
    {"text/plain", "image/jpeg", "image/png", "application/pdf", "audio/mpeg",
     "video/mp4", "application/zip", OctetStream, "application/x-tar"}

  /** The Content-Type for an extension: the table's value when the
      extension is a key (matched exactly, case included), the generic
      binary type otherwise. */
  function ContentType(ext: string): (r: string)
    ensures r in KnownTypes
    ensures ext in ContentTypes ==> r == ContentTypes[ext]
    ensures r != OctetStream ==> ext in ContentTypes && ext != ".exe"
    ensures ext !in ContentTypes ==> r == OctetStream
  {
    if ext in ContentTypes then ContentTypes[ext] else OctetStream
  }

  const DispositionPrefix: string := "attachment; filename="

  /** The value of the Content-Disposition header for a base name: an
      attachment whose file-name parameter is exactly `name`. */
  function Disposition(name: string): (d: string)
    ensures DispositionPrefix <= d && d[|DispositionPrefix|..] == name
  {
    "attachment; filename=" + name
  }

  /** The file name is recovered from the header. */
  lemma DispositionInjective(a: string, b: string)
    ensures Disposition(a) == Disposition(b) <==> a == b
  {
  }

  /** The nine entries of the table, each extension with its own type. */
  lemma ContentTypeTable()
    ensures ContentType(".txt") == "text/plain"
    ensures ContentType(".jpg") == "image/jpeg"
    ensures ContentType(".png") == "image/png"
    ensures ContentType(".pdf") == "application/pdf"
    ensures ContentType(".mp3") == "audio/mpeg"
    ensures ContentType(".mp4") == "video/mp4"
    ensures ContentType(".zip") == "application/zip"
    ensures ContentType(".exe") == "application/octet-stream"
    ensures ContentType(".tar") == "application/x-tar"
  {
  }

  datatype Headers = Headers(contentType: string, contentDisposition: string)

  /** What the handler does: set both headers from the registered path and
      serve that path. */
  datatype Response = ServeFile(headers: Headers, path: string)

  /** The headers for a file path. */
  function HeadersFor(file: string): (h: Headers)
    ensures h.contentType == ContentType(Paths.Ext(file))
    ensures h.contentType in KnownTypes
    ensures Paths.Ext(file) !in ContentTypes ==> h.contentType == OctetStream
    ensures DispositionPrefix <= h.contentDisposition
    ensures h.contentDisposition[|DispositionPrefix|..] == Paths.Base(file)
  {
    Headers(ContentType(Paths.Ext(file)), Disposition(Paths.Base(file)))
  }

  /** The handler bound to `token`. Reading a missing key of a Go map yields
      the empty string; the handler has no not-found branch of its own. */
  function HandleSendFile(files: Registry.FileMap, token: string): (resp: Response)
    ensures token in files ==> resp.path == files[token]
    ensures token !in files ==> resp.path == ""
    ensures resp.headers == HeadersFor(resp.path)
  {
    var file := Registry.Read(files, token);
    ServeFile(HeadersFor(file), file)
  }

  lemma FileNameExt(dir: string, stem: string, tail: string)
    requires Paths.Separator !in tail && '.' !in tail
    ensures Paths.Ext(dir + "/" + stem + "." + tail) == "." + tail
  {
    Paths.ExtOfSuffix(dir + "/" + stem, tail);
  }

  lemma FileNameBase(dir: string, stem: string, tail: string)
    requires Paths.Separator !in stem && Paths.Separator !in tail
    ensures Paths.Base(dir + "/" + stem + "." + tail) == stem + "." + tail
  {
    var name := stem + "." + tail;
    assert dir + "/" + stem + "." + tail == dir + [Paths.Separator] + name;
    Paths.BaseOfJoin(dir, name);
  }

  /** For a file named `stem.tail` in any directory, the handler sends the
      table's type for ".tail" and offers the file under its own name. */
  lemma HeadersForFileName(dir: string, stem: string, tail: string)
    requires Paths.Separator !in stem && Paths.Separator !in tail && '.' !in tail
    ensures HeadersFor(dir + "/" + stem + "." + tail)
         == Headers(ContentType("." + tail), Disposition(stem + "." + tail))
  {
    FileNameExt(dir, stem, tail);
    FileNameBase(dir, stem, tail);
    var p := dir + "/" + stem + "." + tail;
    assert HeadersFor(p) == Headers(ContentType(Paths.Ext(p)), Disposition(Paths.Base(p)));
  }

  lemma ReportPdfExt(dir: string)
    ensures Paths.Ext(dir + "/report.pdf") == ".pdf"
  {
    FileNameExt(dir, "report", "pdf");
    assert dir + "/" + "report" + "." + "pdf" == dir + "/report.pdf";
  }

  lemma ReportPdfBase(dir: string)
    ensures Paths.Base(dir + "/report.pdf") == "report.pdf"
  {
    FileNameBase(dir, "report", "pdf");
    assert dir + "/" + "report" + "." + "pdf" == dir + "/report.pdf";
  }

  /** A PDF report in any directory is sent as application/pdf under its own name. */
  lemma ReportPdfHeaders(dir: string)
    ensures HeadersFor(dir + "/report.pdf") == Headers("application/pdf", "attachment; filename=report.pdf")
  {
    ReportPdfExt(dir);
    ReportPdfBase(dir);
    var p := dir + "/report.pdf";
    assert HeadersFor(p) == Headers(ContentType(Paths.Ext(p)), Disposition(Paths.Base(p)));
    PdfType();
    ReportPdfDisposition();
  }

  lemma ReportPdfDisposition()
    ensures Disposition("report.pdf") == "attachment; filename=report.pdf"
  {
  }

  lemma PdfType()
    ensures ContentType(".pdf") == "application/pdf"
  {
  }

  /** A file with an extension outside the table is sent as the generic binary type. */
  lemma DataBinHeaders(dir: string)
    ensures HeadersFor(dir + "/data.bin").contentType == OctetStream
  {
    var p := dir + "/data.bin";
    assert p == dir + "/" + "data" + "." + "bin";
    FileNameExt(dir, "data", "bin");
    assert ContentType(Paths.Ext(p)) == OctetStream by {
      assert ".bin" !in ContentTypes;
    }
  }

  /** Extensions are matched case-sensitively: ".PDF" is not in the table. */
  lemma ExtensionMatchIsCaseSensitive()
    ensures ContentType(".PDF") == OctetStream
  {
  }
}

=== FILE: strings.dfy ===
/** The two `strings` package predicates the program relies on, compared
    character by character and case-sensitively, as Go compares bytes. */
module Strings {

  /** `strings.HasPrefix(s, prefix)`. */
  function HasPrefix(s: string, prefix: string): (b: bool)
    ensures b <==> prefix <= s
  {
    if |prefix| == 0 then true
    else |s| > 0 && s[0] == prefix[0] && HasPrefix(s[1..], prefix[1..])
  }

  /** `sub` occurs in `s` starting at index `i`. */
  predicate OccursAt(s: string, sub: string, i: nat) {
    i + |sub| <= |s| && s[i..i + |sub|] == sub
  }

  lemma OccursAtShift(s: string, sub: string, i: nat)
    requires |s| > 0
    ensures OccursAt(s[1..], sub, i) <==> OccursAt(s, sub, i + 1)
  {
    if i + |sub| <= |s[1..]| {
      assert s[1..][i..i + |sub|] == s[i + 1..i + 1 + |sub|];
    }
  }

  /** `strings.Contains(s, sub)`: some position of `s` starts a copy of `sub`. */
  function Contains(s: string, sub: string): (b: bool)
    ensures b <==> exists i: nat :: OccursAt(s, sub, i)
    decreases |s|
  {
    if HasPrefix(s, sub) then
      assert OccursAt(s, sub, 0);
      true
    else if |s| == 0 then
      false
    else
      var rest := Contains(s[1..], sub);
      ContainsStep(s, sub, rest);
      rest
  }

  /** The recursive step of `Contains`: an occurrence in `s` that is not at
      index 0 is an occurrence in `s[1..]` shifted by one. */
  lemma ContainsStep(s: string, sub: string, rest: bool)
    requires |s| > 0 && !(sub <= s)
    requires rest <==> exists i: nat :: OccursAt(s[1..], sub, i)
    ensures rest <==> exists i: nat :: OccursAt(s, sub, i)
  {
    if rest {
      var i: nat :| OccursAt(s[1..], sub, i);
      OccursAtShift(s, sub, i);
    }
    if exists i: nat :: OccursAt(s, sub, i) {
      var i: nat :| OccursAt(s, sub, i);
      assert i != 0;
      OccursAtShift(s, sub, i - 1);
    }
  }
}

=== FILE: token.dfy ===
/** `generateRandomString`: the URL token is the hex text of bytes read
    from the system's entropy source, which the model takes as an input. */
module Token {
  import opened Prelude
  import Hex

  /** The outcome of `rand.Read` into a buffer of the requested length. */
  datatype Entropy = Bytes(data: seq<byte>) | Unavailable

  /** The byte length the publishing workflow asks for. */
  const TokenBytes: nat := 12

  /** The token for `length` random bytes: their lower-case hex text, or the
      empty string when the entropy source fails. */
  function GenerateRandomString(length: nat, entropy: Entropy): (token: string)
    requires entropy.Bytes? ==> |entropy.data| == length
    ensures entropy.Unavailable? ==> token == ""
    ensures entropy.Bytes? ==> |token| == 2 * length && Hex.IsLowerHex(token)
    ensures entropy.Bytes? ==> Hex.Decode(token) == Some(entropy.data)
  {
    match entropy
    case Unavailable => ""
    case Bytes(data) =>
      Hex.DecodeEncode(data);
      Hex.Encode(data)
  }

  /** A workflow token is 24 lower-case hex characters. */
  lemma WorkflowTokenShape(entropy: Entropy)
    requires entropy.Bytes? && |entropy.data| == TokenBytes
    ensures |GenerateRandomString(TokenBytes, entropy)| == 24
    ensures Hex.IsLowerHex(GenerateRandomString(TokenBytes, entropy))
  {
  }

  /** Distinct random bytes give distinct tokens, so a token names one draw. */
  lemma DistinctEntropyDistinctTokens(length: nat, a: seq<byte>, b: seq<byte>)
    requires |a| == length && |b| == length && a != b
    ensures GenerateRandomString(length, Bytes(a)) != GenerateRandomString(length, Bytes(b))
  {
    Hex.EncodeInjective(a, b);
  }
}

=== FILE: workflow.dfy ===
/** The publishing workflow: the "generate link" button and
    `startFileServer` — mint a token, record it, register its route and
    format its URL. */
module Workflow {
  import opened Prelude
  import opened Registry
  import Token
  import Hex
  import Links
  import Serving

  /** The registry together with the set of route patterns registered on the
      default HTTP mux. */
  datatype Server = Server(files: FileMap, routes: set<string>)

  /** The overview route, registered at start-up. */
  const RootRoute: string := "/"

  const Initial: Server := Server(Empty, {RootRoute})

  /** Every registered token has its route, and every route other than the
      overview is the route of a registered token. */
  predicate Consistent(s: Server) {
    && RootRoute in s.routes
    && (forall t :: t in s.files ==> Links.Route(t) in s.routes)
    && (forall r :: r in s.routes ==>
          (r == RootRoute || (Links.TokenOfRoute(r).Some? && Links.TokenOfRoute(r).value in s.files)))
  }

  lemma InitialConsistent()
    ensures Consistent(Initial)
  {
  }

  /** The state change of one publication: the registry maps `token` to
      `path` and the token's route is registered. */
  function Register(s: Server, token: string, path: string): (r: Server)
    ensures Read(r.files, token) == path
    ensures forall k :: k != token ==> Read(r.files, k) == Read(s.files, k)
    ensures Links.Route(token) in r.routes && s.routes <= r.routes
    ensures forall q :: q in r.routes && q != Links.Route(token) ==> q in s.routes
  {
    Server(Publish(s.files, token, path), s.routes + {Links.Route(token)})
  }

  /** Registering a token keeps every token routed and every route backed by
      a token. */
  lemma RegisterConsistent(s: Server, token: string, path: string)
    requires Consistent(s)
    ensures Consistent(Register(s, token, path))
  {
    var r := Register(s, token, path);
    Links.RouteRoundTrip(token);
    forall q | q in r.routes
      ensures q == RootRoute || (Links.TokenOfRoute(q).Some? && Links.TokenOfRoute(q).value in r.files)
    {
      if q != Links.Route(token) {
        assert q in s.routes;
      }
    }
  }

  /** The outcome of one publication. */
  datatype Published = Published(server: Server, token: string, url: string)

  /** `startFileServer`: the token is the hex text of the twelve random
      bytes (empty when entropy fails, in which case the program still
      publishes under the empty token), the registry maps it to the path,
      its route is registered and the URL addresses that route. */
  function StartFileServer(s: Server, path: string, entropy: Token.Entropy, ip: string): (p: Published)
    requires entropy.Bytes? ==> |entropy.data| == Token.TokenBytes
    ensures entropy.Bytes? ==> |p.token| == 24 && Hex.Decode(p.token) == Some(entropy.data)
    ensures entropy.Unavailable? ==> p.token == ""
    ensures Read(p.server.files, p.token) == path
    ensures forall k :: k != p.token ==> Read(p.server.files, k) == Read(s.files, k)
    ensures |p.server.files| == if p.token in s.files then |s.files| else |s.files| + 1
    ensures p.server.routes == s.routes + {Links.Route(p.token)}
    ensures Links.TokenOfUrl(ip, p.url) == Some(p.token)
    ensures Serving.HandleSendFile(p.server.files, p.token).path == path
  {
    var token := Token.GenerateRandomString(Token.TokenBytes, entropy);
    var url := Links.DownloadUrl(ip, token);
    Links.UrlRoundTrip(ip, token);
    Published(Register(s, token, path), token, url)
  }

  /** Publishing keeps every token routed and every route backed by a token. */
  lemma StartFileServerConsistent(s: Server, path: string, entropy: Token.Entropy, ip: string)
    requires entropy.Bytes? ==> |entropy.data| == Token.TokenBytes
    requires Consistent(s)
    ensures Consistent(StartFileServer(s, path, entropy, ip).server)
  {
    RegisterConsistent(s, StartFileServer(s, path, entropy, ip).token, path);
  }

  /** What the "generate link" button does. */
  datatype Outcome = Prompt(message: string) | Started(published: Published)

  /** The prompt shown when no file has been selected. */
  const SelectFirst: string := "\U{8bf7}\U{5148}\U{9009}\U{62e9}\U{6587}\U{4ef6}"

  /** The button handler: with no file selected it only prompts; otherwise
      it publishes the selected file. */
  function OnGenerateLink(selected: string, s: Server, entropy: Token.Entropy, ip: string): (o: Outcome)
    requires entropy.Bytes? ==> |entropy.data| == Token.TokenBytes
    ensures o.Prompt? <==> selected == ""
    ensures o.Prompt? ==> o.message == SelectFirst
    ensures o.Started? ==> Read(o.published.server.files, o.published.token) == selected
  {
    if selected == "" then Prompt(SelectFirst) else Started(StartFileServer(s, selected, entropy, ip))
  }

  /** A request whose route is registered on a consistent server reaches a
      registered token, so the handler serves that token's file. */
  lemma HandlerServesRegisteredFile(s: Server, token: string)
    requires Consistent(s) && Links.Route(token) in s.routes
    ensures token in s.files
    ensures Serving.HandleSendFile(s.files, token).path == s.files[token]
  {
    Links.RouteRoundTrip(token);
  }

  /** Publishing the same path twice with different random bytes mints two
      tokens; both resolve to the path and the registry grows by two. */
  lemma RepublishMintsNewToken(s: Server, path: string, a: seq<byte>, b: seq<byte>, ip: string)
    requires |a| == Token.TokenBytes && |b| == Token.TokenBytes && a != b
    requires Token.GenerateRandomString(Token.TokenBytes, Token.Bytes(a)) !in s.files
    requires Token.GenerateRandomString(Token.TokenBytes, Token.Bytes(b)) !in s.files
    ensures var p1 := StartFileServer(s, path, Token.Bytes(a), ip);
      var p2 := StartFileServer(p1.server, path, Token.Bytes(b), ip);
      && p1.token != p2.token
      && Read(p2.server.files, p1.token) == path
      && Read(p2.server.files, p2.token) == path
      && |p2.server.files| == |s.files| + 2
  {
    Token.DistinctEntropyDistinctTokens(Token.TokenBytes, a, b);
  }

  /** One publication request: a path and the random bytes drawn for it. */
  datatype Request = Request(path: string, entropy: seq<byte>)

  /** The token minted from twelve random bytes. */
  function Mint(entropy: seq<byte>): string
    requires |entropy| == Token.TokenBytes
  {
    Token.GenerateRandomString(Token.TokenBytes, Token.Bytes(entropy))
  }

  /** Publications one after another, as the mutex serialises them; each
      performs the state change of `startFileServer` (the URL it formats
      does not touch the state). */
  function PublishAll(s: Server, requests: seq<Request>): (r: Server)
    requires forall i :: 0 <= i < |requests| ==> |requests[i].entropy| == Token.TokenBytes
    ensures forall k :: k in s.files ==> k in r.files
    decreases |requests|
  {
    if |requests| == 0 then s
    else PublishAll(Register(s, Mint(requests[0].entropy), requests[0].path), requests[1..])
  }

  /** One step of `PublishAll` is one `startFileServer` call. */
  lemma PublishStepIsStartFileServer(s: Server, req: Request, ip: string)
    requires |req.entropy| == Token.TokenBytes
    ensures PublishAll(s, [req]) == StartFileServer(s, req.path, Token.Bytes(req.entropy), ip).server
  {
  }

  /** A run of publications keeps the route/registry invariant. */
  lemma {:induction false} PublishAllConsistent(s: Server, requests: seq<Request>)
    requires forall i :: 0 <= i < |requests| ==> |requests[i].entropy| == Token.TokenBytes
    requires Consistent(s)
    ensures Consistent(PublishAll(s, requests))
    decreases |requests|
  {
    if |requests| > 0 {
      var s' := Register(s, Mint(requests[0].entropy), requests[0].path);
      RegisterConsistent(s, Mint(requests[0].entropy), requests[0].path);
      PublishAllConsistent(s', requests[1..]);
    }
  }

  /** The tokens still to be minted stay fresh after the first publication. */
  lemma RestStaysFresh(s: Server, requests: seq<Request>)
    requires |requests| > 0
    requires forall i :: 0 <= i < |requests| ==> |requests[i].entropy| == Token.TokenBytes
    requires forall i, j :: 0 <= i < j < |requests| ==> requests[i].entropy != requests[j].entropy
    requires forall i :: 0 <= i < |requests| ==> Mint(requests[i].entropy) !in s.files
    ensures var s' := Register(s, Mint(requests[0].entropy), requests[0].path);
      forall i :: 1 <= i < |requests| ==> Mint(requests[i].entropy) !in s'.files
  {
    var e := requests[0].entropy;
    var s' := Register(s, Mint(e), requests[0].path);
    forall i | 1 <= i < |requests| ensures Mint(requests[i].entropy) !in s'.files {
      Token.DistinctEntropyDistinctTokens(Token.TokenBytes, e, requests[i].entropy);
    }
  }

  /** N publications whose random draws are pairwise distinct and whose tokens
      are all fresh add exactly N entries: no insertion is lost. */
  lemma {:induction false} PublishAllSize(s: Server, requests: seq<Request>)
    requires forall i :: 0 <= i < |requests| ==> |requests[i].entropy| == Token.TokenBytes
    requires forall i, j :: 0 <= i < j < |requests| ==> requests[i].entropy != requests[j].entropy
    requires forall i :: 0 <= i < |requests| ==> Mint(requests[i].entropy) !in s.files
    ensures |PublishAll(s, requests).files| == |s.files| + |requests|
    decreases |requests|
  {
    if |requests| > 0 {
      var s' := Register(s, Mint(requests[0].entropy), requests[0].path);
      var rest := requests[1..];
      assert |s'.files| == |s.files| + 1;
      RestStaysFresh(s, requests);
      assert forall i :: 0 <= i < |rest| ==> rest[i] == requests[i + 1];
      PublishAllSize(s', rest);
    }
  }
}
